=== FILE: README.md ===
# ConvertKit REST client — a Dafny model of its core

This project models the sequential core of a JavaScript client for the
ConvertKit v3 REST API and proves properties of that model with Dafny.

- **Rate governor** (`RequestManager`, request_manager.dfy). It is an
  event-driven state machine over a dispatch counter, a limit, an
  insertion-ordered queue of call identities and the settlement of each
  call's promise. Three events stand in for timers and promises:
  - a new request;
  - the window timer firing (`reset`);
  - the completion of the `send` a running drain awaits.
- **Call unit** (`Calls`, calls.dfy). Covers:
  - the classification of a transport outcome by `send` (success,
    404/422/other ≥ 400, 429, no response, setup failure);
  - the first-write-wins promise that `wait()` memoises.
- **Classified errors** (`Errors`, errors.dfy). Covers the network and
  validation error classes, their `toJSON` shapes, and the exception
  channel: a classified error, `undefined`, or an engine `TypeError`.
- **Client facade** (`Client`, client.dfy). Covers:
  - the rate constants;
  - query, credential and payload assembly in `#request`;
  - the four verbs.

  A resource operation is a pure function from its arguments and the
  replies it awaits to a `Run`: the client calls issued, in order, and
  how the operation ended.
- **Pagination and filters** (`Pagination`, `SubscriptionFilter`).
  Covers the page-counter loop of `paginatedRequest`, the in-order
  collection every "get all" helper wraps around it, and
  `buildSubscriptionFilter`.
- **Resources and entities** (`Subscribers`, `Subscriptions`, `Tags`,
  `Forms`, `CustomFields`, `Broadcasts`). Covers:
  - the constructors, `toJSON` projections, guards and payloads;
  - first-match lookups;
  - the array-or-object normalisation of `createCustomField`;
  - the stats-or-null extraction of broadcasts.

JavaScript values are `Js.Value`: undefined, null, booleans, integers,
strings, arrays and objects as `map<string, Value>`. Truthiness is
explicit. Reading a property of `null` or `undefined` is an explicit
`TypeError`, and so is calling `map` on a non-array (module `Reads`).
Server replies and HTTP outcomes are inputs.

## Model

| member | source | states |
|---|---|---|
| Errors.NewNetworkError | src/utils/ConvertKitNetworkError.js:4-12 | the message is the first argument, the name is the second (the error kind), the status is the third and may be null |
| Errors.NewValidationError | src/utils/ConvertKitValidationError.js:4-13 | the name is the message argument itself, whatever its type (a 422 body's `message` may be null or a number); a string message is also the `message` text, an omitted one leaves it empty; the properties are kept verbatim, undefined when omitted |
| Errors.JsonRoundTrip | src/utils/ConvertKitNetworkError.js:14-20 | `toJSON` of either error class loses nothing: every field is recovered from the JSON shape, and the key set tells the two classes apart |
| Errors.NetworkErrorJson | src/utils/ConvertKitNetworkError.js:14-20 | a network error serialises to exactly `{error: name, message, status}` |
| Errors.ValidationErrorJson | src/utils/ConvertKitValidationError.js:15-21 | a validation error serialises to exactly `{error, message, properties}`; `error` is always the message argument; with a string message `error` equals `message`; an omitted message gives `error` undefined and `message` "" |
| Reads.Construct | src/Subscription.js:30-39 | constructing an entity from a nullish payload throws a TypeError; any other payload is read by the entity's constructor |
| Calls.Wait | src/utils/Request.js:61-70 | the first `wait()` creates a pending promise; any later call returns the existing one unchanged |
| Calls.WaitIsMemoised | src/utils/Request.js:61-70 | repeated `wait()` calls hand out the same promise and never disturb its settlement |
| Calls.SettledIsFinal | src/utils/Request.js:47-56 | once settled, no sequence of later resolves or rejects changes the outcome |
| Calls.FirstSettlementWins | src/utils/Request.js:47-56 | a pending promise takes the outcome of the first settle operation, whatever follows it (so the fall-through resolve after a reject is harmless) |
| Calls.NoHandleNoSettlement | src/utils/Request.js:47-56 | without a promise no resolve or reject has any effect |
| Calls.ClassificationTable | src/utils/Request.js:19-45 | 404 gives `{error: "Not Found", message: "Not Found", status: 404}`; 422 gives a validation error named by the body's message; any other ≥ 400 except 429 gives a network error with the body's message and error and the status; no response gives "No Response" with status null; a setup failure gives "Invalid Request" with status null |
| Calls.StatusReportsTheExchange | src/utils/Request.js:19-45 | a network error's status is null exactly when no response arrived, otherwise the HTTP status; a 429 is retried iff a manager is present; classification crashes exactly on a nullish error body for statuses other than 404 and 429 |
| Calls.Send | src/utils/Request.js:15-59 | success returns the response data, with or without a promise, and fulfils a pending promise with it; 429 with a manager backs off and re-queues, leaving the call as it was; with a promise, a classified error goes to `reject`, and then the response's data is returned, or a TypeError is thrown when no response exists; without a promise, the error is thrown; a crash while building the error throws a TypeError |
| Calls.SendFollowsItsSettleOps | src/utils/Request.js:47-58 | the call after `send` is exactly the effect of its settle operations in source order (resolve; or reject then the fall-through resolve; or reject alone), so a pending promise takes the first of them and a call without a promise is never settled |
| RequestManager.NewIsValid | src/utils/RequestManager.js:4-13 | a new manager has counter 0, an empty queue, and satisfies the state invariant |
| RequestManager.Enqueue | src/utils/RequestManager.js:47-53 | the call is added at the end of the queue unless already present; it takes its memoised promise; counter and limit are untouched; the invariant is preserved |
| RequestManager.EnqueueIsIdempotent | src/utils/RequestManager.js:47-53 | enqueueing a call twice is enqueueing it once: same queue, same promise |
| RequestManager.BackOff | src/utils/RequestManager.js:19-22 | the counter becomes exactly the limit, whatever it was; the queue and the calls are untouched |
| RequestManager.Request | src/utils/RequestManager.js:55-67 | at count ≥ limit the call is queued and the counter unchanged; below the limit the counter rises by exactly one and the call is sent, its result answered directly; a 429 saturates the counter and queues the call; existing calls keep their state; an immediate send creates no promise; a crash while classifying answers with a TypeError |
| RequestManager.Reset | src/utils/RequestManager.js:31-35 | a drain starts iff the limit is positive and the queue is non-empty; the un-awaited `processQueue` counts its first call before it first awaits, so the counter is 1 when a drain starts and 0 otherwise |
| RequestManager.DrainStep | src/utils/RequestManager.js:37-45 | the queue head's send completes; a returned call is removed, and the next call is counted (without comparing the counter with the limit) and sent; a throw stops the drain with the call still queued and the counter unchanged; a 429 saturates the counter; the drain ends when the queue empties |
| RequestManager.Step | src/utils/RequestManager.js:31-67 | every event keeps the state invariant: the queue has no duplicates, every queued call exists and holds a promise, ids are fresh, and a running drain has something to send, a positive limit and its in-flight call counted |
| RequestManager.Run | src/utils/RequestManager.js:31-67 | the invariant holds after any sequence of events |
| RequestManager.SettlementSurvivesStep | src/utils/RequestManager.js:37-63 | a settled call keeps its settlement through any event |
| RequestManager.SettlementSurvivesRun | src/utils/RequestManager.js:37-63 | a settled call keeps its settlement through any sequence of events (exactly-once resolution) |
| RequestManager.Drain | src/utils/RequestManager.js:37-45 | a drain run over any sequence of send outcomes keeps the invariant and the set of known calls |
| RequestManager.DrainDeliversInOrder | src/utils/RequestManager.js:38-43 | when every send succeeds, a drain sends the queue in insertion order, fulfils each promise with its own response, empties the queue, and raises the counter by one for each call dispatched after the first, which the reset already counted |
| RequestManager.SettlementSurvivesDrain | src/utils/RequestManager.js:38-43 | a drain never changes an already settled call |
| RequestManager.DrainCanExceedLimit | src/utils/RequestManager.js:38-43 | after a reset, a queue longer than the limit drains completely and leaves the counter above the limit |
| RequestManager.OvershootAfterBackOff | src/utils/RequestManager.js:19-67 | limit 1: a 429 backs off (the only way a reset gets scheduled), two more calls queue behind it, and the drain after the reset sends all three (counter 3) |
| RequestManager.InFlightDrainCallIsCounted | src/utils/RequestManager.js:31-41 | a request arriving while a drain awaits its first send sees that call counted: with limit 1 it is queued, not sent |
| RequestManager.NoResponseStallsTheDrain | src/utils/RequestManager.js:39-43 | a drained call that gets no response is rejected, stops the drain and stays at the queue head, so the next reset sends it again |
| RequestManager.ThrottleQueuesEveryone | src/utils/Request.js:24-29 | a 429 on an immediate send saturates the counter even from 0, so the next request is queued behind it; the reset dispatches the throttled call first (counter 1), it takes the retried response, and the next queued call is then counted (counter 2) |
| Client.ManagerFor | src/index.js:23-40 | every client's manager starts with limit 120, counter 0 and an empty queue |
| Client.AuthorizePrecedence | src/index.js:60-66 | a missing query becomes `{}`; the secret is added whenever set, the key only without a secret, neither when both are unset; other query keys pass through untouched |
| Client.AuthorizeOnReusedQuery | src/index.js:60-66 | a query already authorised and given a new page number authorises to the same object as a fresh one |
| Client.PayloadOf | src/index.js:68-82 | base URL, path, verb, JSON header, no credentials, JSON response type; `data` is present iff it is truthy |
| Client.VerbsRouteData | src/index.js:93-145 | `Get` and `Delete` never carry a body; `Post` and `Put` carry theirs exactly when it is truthy; each verb maps to its method |
| SubscriptionFilter.BuildSubscriptionFilter | src/utils/buildSubscriptionFilter.js:3-13 | `sort_order` is copied only when "asc"/"desc"; `subscriber_state` is copied when it is "active" or the sort order is "cancelled"; every other key of `initial` is preserved; only these two keys can be added; missing arguments are `{}` |
| SubscriptionFilter.CancelledStateAloneIsDropped | src/utils/buildSubscriptionFilter.js:8-10 | a state of "cancelled" without the sort order "cancelled" is never copied |
| SubscriptionFilter.BuildIsIdempotent | src/utils/buildSubscriptionFilter.js:3-13 | building again with the same filters changes nothing |
| SubscriptionFilter.PageSurvives | src/utils/buildSubscriptionFilter.js:3-13 | the `page` the collection helpers start from survives any filters |
| Pagination.StartPage | src/utils/paginatedRequest.js:4 | the walk starts after `options.page`, or after 0 when that is falsy |
| Pagination.WalkFrom | src/utils/paginatedRequest.js:3-12 | at least one page is requested; each page is one more than the previous; every reply but the last asks for more; the walk ends at the first reply whose `total_pages` does not exceed the page, or at the first rejection, which it passes on; `options.page` ends at the last page requested |
| Pagination.ConstantTotalPages | src/utils/paginatedRequest.js:7-11 | with a constant `total_pages` T and start s, the pages requested are exactly s+1 … max(s+1, T) |
| Pagination.Collect | src/utils/paginatedRequest.js:3-12 | a "get all" helper issues one GET per page with the same query and the page set, and stops at the first reply that rejects or whose `total_pages` does not exceed the page it asked for; it builds one entity per entry, pages concatenated in request order; a rejected page rejects the helper with the same error |
| Pagination.CollectFromStart | src/utils/paginatedRequest.js:3-12 | from a query at page 0, the i-th GET asks for page i + 1, with the same stop rule and collection guarantees |
| Subscribers.ToJson | src/Subscribers/Subscriber.js:174-183 | `toJSON` has exactly the six keys id, first_name, email_address, state, created_at, fields |
| Subscribers.New | src/Subscribers/Subscriber.js:35-44 | each property the payload gives is kept; a missing or undefined one becomes null (`fields` becomes `{}`); no property is undefined afterwards |
| Subscribers.JsonRoundTrip | src/Subscribers/Subscriber.js:174-183 | a subscriber with no undefined property is rebuilt exactly from its `toJSON` |
| Subscribers.FromValue | src/Subscribers/Subscriber.js:35 | an undefined payload takes the `{}` default; only `null` cannot be destructured |
| Subscribers.UpdateProperties | src/Subscribers/Subscriber.js:59-65 | the five data properties are overwritten with what the payload holds, undefined included; `id` never changes; a nullish payload throws |
| Subscribers.UpdatePayload | src/Subscribers/Subscriber.js:86-98 | the body holds exactly those of first_name, email_address and fields that are not undefined, with their values |
| Subscribers.Update | src/Subscribers/Subscriber.js:81-105 | a nullish argument throws before anything else; a falsy id throws "Invalid Subscriber ID" with the `toJSON` properties, before any request; otherwise one PUT with the partial body; the id never changes; a reply's `subscriber` refreshes every other property, and a reply without one throws a TypeError |
| Subscribers.Unsubscribe | src/Subscribers/Subscriber.js:116-126 | a falsy email throws "Invalid Subscriber email" before any request; otherwise one PUT to `/unsubscribe` with that email, and the reply's `subscriber` refreshes the entity; a reply without one throws a TypeError |
| Subscribers.ListTags | src/Subscribers/Subscriber.js:137-145 | a falsy id throws "Invalid Subscriber id" before any request; otherwise one GET, and a rejected reply rejects with the same error, a nullish reply throws a TypeError in the destructuring, and any other reply gives its raw `tags` |
| Subscribers.SetSortOrder | src/Subscribers/index.js:31-35 | the sort order is always set: "asc"/"desc" kept, anything else becomes "asc"; no other key changes |
| Subscribers.CopyIfTruthy | src/Subscribers/index.js:37-51 | a date filter is copied only when truthy; no other key changes |
| Subscribers.SetSortField | src/Subscribers/index.js:53-55 | `sort_field` is set only when it is "cancelled_at"; no other key changes |
| Subscribers.FilterBuilder | src/Subscribers/index.js:30-58 | key by key, the query equals the reference: sort order always, truthy date filters, sort field only as "cancelled_at", and otherwise what `initial` held (so `page` is preserved) |
| Subscribers.FilterBuilderIsIdempotent | src/Subscribers/index.js:30-58 | the built query always carries a valid sort order, and rebuilding it with the same filters changes nothing |
| Subscribers.GetSubscriber | src/Subscribers/index.js:84-88 | one GET of `/subscribers/<id>`; the reply's `subscriber` is the result; a nullish reply or a null `subscriber` throws a TypeError |
| Subscribers.FindSubscriber | src/Subscribers/index.js:101-111 | one GET with the email as query; null iff no listed subscriber has exactly that email; otherwise the first that has it |
| Subscribers.AllSubscribersQuery | src/Subscribers/index.js:131-133 | the paging query is the filters built onto `{page: 0}`, and its page stays 0 |
| Subscribers.GetAllSubscribers | src/Subscribers/index.js:130-143 | one GET per page, page i + 1 for the i-th, until the first reply that rejects or reports no later page; one subscriber per listed entry, pages concatenated in request order; a rejected page rejects the whole call with that page's error |
| Subscribers.UpdateSubscriber | src/Subscribers/index.js:160-164 | one PUT with the payload as given; the reply's `subscriber` is the result |
| Subscribers.UnsubscribeSubscriber | src/Subscribers/index.js:177-181 | one PUT to `/unsubscribe`; the reply's `subscriber` is the result |
| Subscribers.GetTagsForSubscriber | src/Subscribers/index.js:194-198 | one GET of the subscriber's tags; a rejected reply rejects with the same error, a nullish reply throws a TypeError in the destructuring, and any other reply gives its raw `tags` |
| Subscribers.ListTagsAgreesWithResource | src/Subscribers/Subscriber.js:137-145 | with a truthy id, the entity's `listTags` is the resource's `getTagsForSubscriber` |
| Subscribers.UnsubscribeAgreesWithResource | src/Subscribers/Subscriber.js:116-126 | the entity and the resource send the same request and agree on a reply that returns the subscriber in full; on a reply without `subscriber` only the entity throws |
| Subscriptions.New | src/Subscription.js:30-46 | the seven scalar properties are copied verbatim; the nested subscriber is wrapped iff it is truthy, otherwise null |
| Subscriptions.NewReadsOnlyItsKeys | src/Subscription.js:30-46 | payloads that agree on the eight keys build the same subscription, and a wrapped subscriber has no undefined property |
| Subscriptions.GetSubscriber | src/Subscription.js:57-63 | null without a subscriber or with a falsy id, and no request; otherwise exactly the resource's `getSubscriber` for that id |
| Subscriptions.GetSubscriberFetchesTheWrappedId | src/Subscription.js:57-63 | a subscription whose payload carried a subscriber with an id fetches that id and returns the replied subscriber |
| Tags.New | src/Tags/Tag.js:31-40 | the six properties are copied verbatim, with no defaults |
| Tags.ToJson | src/Tags/Tag.js:69-75 | `toJSON` projects exactly id, name and created_at |
| Tags.JsonRoundTrip | src/Tags/Tag.js:69-75 | rebuilding from `toJSON` keeps id, name and created_at and leaves the other three undefined; projecting again gives the same JSON |
| Tags.GetSubscriptions | src/Tags/Tag.js:42-55 | pages of `tags/<id>/subscriptions` with the subscription filters on `{page: 0}`, fetched until the first reply that rejects or reports no later page; one subscription per entry, pages concatenated in request order; a rejected page rejects the whole call with that page's error |
| Tags.AddSubscriber | src/Tags/Tag.js:57-61 | one POST of `{email}` to the tag's subscribe path; the reply's `subscription` is the result; a nullish one throws |
| Tags.RemoveSubscriber | src/Tags/Tag.js:63-67 | one POST of `{email}` to the tag's unsubscribe path; the same tag unchanged once it succeeds |
| Tags.GetAll | src/Tags/index.js:21-25 | one GET of `tags`; one tag per element of the reply's `tags`, in order; a non-array or a nullish element throws |
| Tags.GetTag | src/Tags/index.js:27-31 | the first listed tag whose name equals the argument; undefined iff none has it |
| Tags.CreateTag | src/Tags/index.js:37-41 | the body is `{tag: {name}}`; the whole reply is the tag |
| Tags.BulkCreateTags | src/Tags/index.js:47-53 | a non-array argument throws before any request; the body is `{tag: [{name}…]}`, one entry per name in order; one tag per element of the reply |
| Tags.GetAllSubscriptions | src/Tags/index.js:67-80 | an omitted query is `{}`; pages of the tag's subscriptions from `{page: 0}`, up to the first reply that rejects or reports no later page, concatenated in request order; a rejected page rejects the whole call with that page's error |
| Tags.TagSubscriptionsAgreeWithResource | src/Tags/Tag.js:42-55 | the entity's `getSubscriptions` and the resource's `getAllSubscriptions` for its id are the same walk |
| Tags.BulkPayloadMatchesSingle | src/Tags/index.js:37-53 | each entry of the bulk body is the object `createTag` nests under `tag` |
| Tags.SubscriberAddTag | src/Subscribers/Subscriber.js:151-155 | one POST of the subscriber's email to the tag's subscribe path; the reply's `subscription` is the result |
| Tags.AddTagIsAddSubscriber | src/Subscribers/Subscriber.js:151-155 | tagging a subscriber from the subscriber's side is the same call and result as `tag.addSubscriber` with its email |
| Tags.SubscriberRemoveTag | src/Subscribers/Subscriber.js:161-165 | one DELETE of `subscribers/<id>/tags/<tag>`; the whole reply is read as a tag |
| Forms.New | src/Forms/Form.js:55-69 | the eleven properties are copied verbatim |
| Forms.PropertiesRoundTrip | src/Forms/Form.js:55-69 | a form rebuilt from its own properties is the same form |
| Forms.BuildFilters | src/Forms/Form.js:11-21 | the `page` of `initial` is preserved |
| Forms.BuildFiltersIsSubscriptionFilter | src/Forms/index.js:9-19 | the private `#buildFilters` copies build exactly what `buildSubscriptionFilter` builds for the same arguments |
| Forms.GetAllSubscriptions | src/Forms/Form.js:100-113 | pages of `forms/<id>/subscriptions` from `{page: 0}` with the filters, up to the first reply that rejects or reports no later page; one subscription per entry, in request order; a rejected page rejects the whole call with that page's error |
| Forms.GetAll | src/Forms/index.js:29-32 | one GET of `/forms`; one form per element of the reply's `forms`, in order |
| Forms.GetAllFormSubscriptions | src/Forms/index.js:49-62 | the resource walks the form's pages from `{page: 0}` with the filters, stops at the first reply that rejects or reports no later page, and collects one subscription per entry in request order; a rejected page rejects the whole call with that page's error |
| Forms.FormSubscriptionsAgreeWithResource | src/Forms/Form.js:100-113 | the entity's and the resource's subscription listings of one form are identical |
| Forms.AddSubscriberAsWritten | src/Forms/index.js:34-37 | the POST is issued, and the call then rejects with a TypeError whatever the server answers |
| Forms.FormAddSubscriberAsWritten | src/Forms/Form.js:84-88 | the same defect in the entity's `addSubscriber` |
| Forms.AddSubscriber | src/Forms/index.js:34-37 | with the reply awaited: one POST of the details; the reply's `subscription` is the result; a rejection passes through |
| Forms.FormAddSubscriber | src/Forms/Form.js:84-88 | the entity's version with the reply awaited |
| Forms.AddSubscriberLosesTheReply | src/Forms/index.js:34-37 | on a reply carrying a subscription, the code as written rejects, while the awaited version returns that subscription |
| Forms.AddSubscriberDiffersOnlyInTheResult | src/Forms/index.js:34-37 | both versions issue the same request; their results agree exactly when the awaited version itself fails with a TypeError |
| Forms.FormAddSubscriberLosesTheReply | src/Forms/Form.js:84-88 | the same discrepancy for the entity, on any replied subscription |
| CustomFields.New | src/CustomFields/CustomField.js:22-29 | id, name, key and label are copied verbatim |
| CustomFields.ToJson | src/CustomFields/CustomField.js:70-77 | `toJSON` has exactly id, label, key and name |
| CustomFields.JsonRoundTrip | src/CustomFields/CustomField.js:70-77 | a field is rebuilt exactly from its `toJSON`, and a payload with exactly those keys survives the other way |
| CustomFields.Update | src/CustomFields/CustomField.js:42-48 | one PUT of `{label}`; the label changes only once the request succeeded, id/key/name never; the promise resolves null |
| CustomFields.Delete | src/CustomFields/CustomField.js:57-61 | one DELETE of the field; resolves null |
| CustomFields.GetAll | src/CustomFields/index.js:28-32 | one GET; one field per element of `custom_fields`, in order |
| CustomFields.Created | src/CustomFields/index.js:50-54 | an array reply gives one field per element, in order; any other non-nullish reply gives a one-element list |
| CustomFields.CreateCustomField | src/CustomFields/index.js:47-55 | one POST of `{label}`; the reply normalised to a list; an object reply gives exactly one field |
| CustomFields.CreatedSingleIsOneEntryArray | src/CustomFields/index.js:50-54 | a single-object reply yields what a one-element array with that object yields |
| CustomFields.UpdateCustomField | src/CustomFields/index.js:69-73 | one PUT of `{label}`; resolves null |
| CustomFields.DeleteCustomField | src/CustomFields/index.js:82-86 | one DELETE; resolves null |
| CustomFields.ResourceAgreesWithEntity | src/CustomFields/index.js:69-86 | the resource's update and delete issue the entity's request and end the same way |
| Broadcasts.New | src/Broadcasts/Broadcast.js:32-38 | id, subject and created_at are copied verbatim |
| Broadcasts.ToJson | src/Broadcasts/Broadcast.js:61-67 | `toJSON` has exactly id, subject and created_at |
| Broadcasts.JsonRoundTrip | src/Broadcasts/Broadcast.js:61-67 | a broadcast is rebuilt exactly from its `toJSON`, and such a payload survives the other way |
| Broadcasts.StatsOf | src/Broadcasts/Broadcast.js:51 | the result is truthy or null; null when `broadcast` is missing or empty; otherwise the first element's `stats` when truthy |
| Broadcasts.ReplyStats | src/Broadcasts/Broadcast.js:49-51 | a nullish reply throws a TypeError; otherwise the stats of the reply's `broadcast` |
| Broadcasts.GetStats | src/Broadcasts/Broadcast.js:47-52 | one GET of `/broadcasts/<id>/stats`; the extracted stats |
| Broadcasts.GetAll | src/Broadcasts/index.js:37-41 | one GET; one broadcast per element of `broadcasts`, in order |
| Broadcasts.GetBroadcastStats | src/Broadcasts/index.js:52-57 | the path embeds the given id; the extracted stats |
| Broadcasts.StatsAgreeWithResource | src/Broadcasts/Broadcast.js:47-52 | the entity's `getStats` is the resource's `getBroadcastStats` for its id |
| Broadcasts.StatsFromReply | src/Broadcasts/Broadcast.js:49-51 | a reply listing stats first yields them when truthy and null otherwise; a reply without `broadcast` yields null |

## Where the code departs from its own evident intent

The model follows the code in each case below.

- The manager is built with `limit: REQUEST_LIMIT` (120) and
  `interval: LIMIT_INTERVAL` (60000) (src/index.js:23-29 and :40). So
  it is meant to allow at most `limit` dispatches per `interval`. The
  code does not keep that ceiling:
  - the drain's inner loop never compares the counter with the limit
    (src/utils/RequestManager.js:39-43);
  - the inner loop visits every queued call, including calls queued
    while it runs.

  `RequestManager.DrainCanExceedLimit` and
  `RequestManager.OvershootAfterBackOff` state the overshoot.
- A 429 with a manager backs off and awaits `enqueue(this)`
  (src/utils/Request.js:25-28), so that a later drain retries the call.
  Inside a drain, that `send` awaits a promise that only a later drain
  can settle. The model ends the drain at that point.
- A call without a response is meant to be rejected with a "No
  Response" error (src/utils/Request.js:39-41 and :47-48). With a
  promise present, the code rejects it and then falls through to read
  `data` of the missing response (src/utils/Request.js:54-58). The
  resulting TypeError aborts the drain and leaves the call queued
  (`RequestManager.NoResponseStallsTheDrain`).
- Two cases throw `undefined` instead of a classified error
  (src/utils/Request.js:24-38, where `error` stays unassigned):
  - a 429 without a manager;
  - an error response below 400.
- A 422 or another ≥ 400 status with a nullish body raises a TypeError
  while the error is being built (src/utils/Request.js:33 and :35-36).

## Left out

- HTTP transport (axios) and JSON encoding: each exchange is an input.
  `Transport` is the outcome of an exchange; a reply is the awaited
  value of a client call.
- Timers are not modelled: a reset is an event that can happen at any
  point. In the source, a reset is only scheduled by `backOff`, so the
  model also admits resets the source never produces, such as one
  before any 429. Two details of the source are notes only:
  - the constructor's callback `() => this.reset` evaluates the method
    without calling it;
  - the delay is `limit` milliseconds, not `interval`.
- Promise interleaving:
  - a drain started while another is still running is not modelled.
    A reset during a drain sets the counter to 1 for the call the second
    loop counts, but the model does not issue that loop's duplicate send
    of the queue head;
  - nor is the re-entrant 429 inside a drain, where `send` awaits a
    promise that only a later drain can settle. The drain ends at that
    point instead.
  - RequestManager.Request: the counter increment, the send and the
    handling of its outcome happen as one event. In the source,
    `await request.send(this)` (src/utils/RequestManager.js:62-63) yields
    control, so a reset, a drain or other requests can run between
    dispatch and response. For example, A is sent, the timer resets, and
    then A's 429 arrives. The source ends with the counter at the limit
    and A queued with no drain pending. The model cannot produce that
    order; it would drain A at the next reset.
- `isOverLimit` (src/utils/RequestManager.js:15-17): never called, and
  its name is the inverse of what it returns.
- src/Account.js and the Purchases, Sequences and Webhooks resources are
  not part of this model. Neither are the build configuration and the
  client reference each entity keeps.
- Numbers are integers: no floating point, no NaN.
- Strict equality between objects is modelled as structural equality,
  not reference identity.
- Property reads see own properties only. Prototype members such as
  `constructor` are not modelled.
- Entity methods that mutate `this` return the new entity state in the
  model.
- A `null` filters or query argument makes the filter builders throw.
  The model takes a record or an omitted argument (`None`).
- A non-object query passed to a verb is not modelled.
- Pagination.Collect: it assumes each page reply has a numeric
  `total_pages` and an array of object entries. A malformed page can be
  passed as a rejected reply.
- Pagination.Collect: it assumes the walk ends within the replies given,
  so a server that never reports the last page is not modelled.
- Pagination.StartPage: a starting `page` must be a number or falsy.
  Every caller starts from 0, and string page numbers are not modelled.

## Findings

| source | as written | input that shows it | evidently intended | confidence | as-written member | corrected member |
|---|---|---|---|---|---|---|
| src/Forms/index.js:34-37 | `addSubscriber` destructures `subscription` from the promise `Post` returns, without `await`, so it reads `undefined` and the `Subscription` constructor throws a TypeError | any call, e.g. a reply `{subscription: {id: 7}}`: the POST is made, yet the call rejects with a TypeError | await the reply and return its `subscription` | high, not executed | Forms.AddSubscriberAsWritten | Forms.AddSubscriber |
| src/Forms/Form.js:84-88 | the entity's `addSubscriber` has the same missing `await` | any reply, e.g. `{subscription: {...}}`: the call rejects with a TypeError | await the reply and return its `subscription` | high, not executed | Forms.FormAddSubscriberAsWritten | Forms.FormAddSubscriber |

=== FILE: broadcasts.dfy ===
/** Broadcasts (src/Broadcasts/Broadcast.js and src/Broadcasts/index.js):
    the broadcast entity with `getStats` and `toJSON`, and the
    `Broadcasts` resource. */
module Broadcasts {
  import opened Js
  import opened Errors
  import opened Reads
  import opened Client

  /** A broadcast instance: three properties copied as they are. */
  datatype Broadcast = Broadcast(id: Value, subject: Value, createdAt: Value)

  /** `new Broadcast(client, broadcast)` on a payload record. */
  function New(r: Record): (b: Broadcast)
    ensures b.id == Lookup(r, "id") && b.subject == Lookup(r, "subject") && b.createdAt == Lookup(r, "created_at")
  {
    Broadcast(Lookup(r, "id"), Lookup(r, "subject"), Lookup(r, "created_at"))
  }

  /** `toJSON()`: all three properties. */
  function ToJson(b: Broadcast): (r: Record)
    ensures r.Keys == {"id", "subject", "created_at"}
  {
    map["id" := b.id, "subject" := b.subject, "created_at" := b.createdAt]
  }

  /** `toJSON` loses nothing: the constructor rebuilds the same broadcast
      from it, and such a payload survives the trip the other way. */
  lemma JsonRoundTrip(b: Broadcast, r: Record)
    ensures New(ToJson(b)) == b
    ensures r.Keys == {"id", "subject", "created_at"} ==> ToJson(New(r)) == r
  {
    if r.Keys == {"id", "subject", "created_at"} {
      var back := ToJson(New(r));
      assert back["id"] == r["id"] && back["subject"] == r["subject"] && back["created_at"] == r["created_at"];
    }
  }

  /** `broadcast?.[0]?.stats || null`, with `broadcast` the reply's
      property: the first entry's truthy `stats`, otherwise `null`. */
  function StatsOf(broadcast: Value): (r: Value)
    ensures r == Null || Truthy(r)
    ensures Nullish(broadcast) ==> r == Null
    ensures broadcast.Arr? && |broadcast.items| == 0 ==> r == Null
    ensures broadcast.Arr? && |broadcast.items| > 0 && broadcast.items[0].Obj? ==>
      r == (if Truthy(Lookup(broadcast.items[0].fields, "stats")) then Lookup(broadcast.items[0].fields, "stats") else Null)
  {
    var stats := OptionalProp(OptionalFirst(broadcast), "stats");
    if Truthy(stats) then stats else Null
  }

  function StatsPath(id: Value): string {
    "/broadcasts/" + ToString(id) + "/stats"
  }

  /** The stats read out of the whole reply; destructuring a nullish
      reply throws. */
  function ReplyStats(v: Value): (r: Completion<Value>)
    ensures r.Abrupt? <==> Nullish(v)
    ensures r.Normal? ==> r.value == StatsOf(Lookup(FieldsOf(v), "broadcast"))
  {
    Then(Prop(v, "broadcast"), (broadcast: Value) => Normal(StatsOf(broadcast)))
  }

  /** `broadcast.getStats()`. */
  function GetStats(b: Broadcast, reply: Completion<Value>): (r: Run<Value>)
    ensures r.calls == [Get(StatsPath(b.id), None)]
    ensures reply.Abrupt? ==> r.result == Abrupt(reply.thrown)
    ensures reply.Normal? ==> r.result == ReplyStats(reply.value)
  {
    Exchange(Get(StatsPath(b.id), None), reply, ReplyStats)
  }

  // ---- the Broadcasts resource ----

  /** `getAll()`: one broadcast per entry of the reply's `broadcasts`. */
  function GetAll(reply: Completion<Value>): (r: Run<seq<Broadcast>>)
    ensures r.calls == [Get("/broadcasts", None)]
    ensures reply.Abrupt? ==> r.result == Abrupt(reply.thrown)
    ensures reply.Normal? && Nullish(reply.value) ==> r.result == Abrupt(TypeError)
    ensures reply.Normal? && !Nullish(reply.value) ==>
      var listed := Lookup(FieldsOf(reply.value), "broadcasts");
      && (r.result.Normal? <==> Records(listed).Normal?)
      && (r.result.Normal? ==>
            && |r.result.value| == |listed.items|
            && forall i :: 0 <= i < |listed.items| ==> r.result.value[i] == New(FieldsOf(listed.items[i])))
  {
    Exchange(Get("/broadcasts", None), reply,
             (v: Value) => Then(Prop(v, "broadcasts"), (broadcasts: Value) => Build(broadcasts, New)))
  }

  /** `getBroadcastStats(broadcast_id)`. */
  function GetBroadcastStats(id: Value, reply: Completion<Value>): (r: Run<Value>)
    ensures r.calls == [Get(StatsPath(id), None)]
    ensures reply.Abrupt? ==> r.result == Abrupt(reply.thrown)
    ensures reply.Normal? ==> r.result == ReplyStats(reply.value)
  {
    Exchange(Get(StatsPath(id), None), reply, ReplyStats)
  }

  /** The entity's and the resource's stats of one broadcast are the same
      request read the same way; a listed broadcast asks for its own id. */
  lemma StatsAgreeWithResource(b: Broadcast, reply: Completion<Value>)
    ensures GetStats(b, reply) == GetBroadcastStats(b.id, reply)
  {
  }

  /** A reply carrying stats for the broadcast yields exactly those stats;
      one without a truthy `stats` yields `null`, never `undefined`. */
  lemma StatsFromReply(stats: Value, rest: seq<Value>)
    ensures var reply := Obj(map["broadcast" := Arr([Obj(map["stats" := stats])] + rest)]);
      ReplyStats(reply) == Normal(if Truthy(stats) then stats else Null)
    ensures ReplyStats(Obj(map[])) == Normal(Null)
  {
    var first := Obj(map["stats" := stats]);
    var listed := Arr([first] + rest);
    assert listed.items[0] == first;
    assert Lookup(FieldsOf(Obj(map[])), "broadcast") == Undefined;
  }
}

=== FILE: calls.dfy ===
/** One outbound call (src/utils/Request.js): the transport outcome of
    its HTTP exchange, the classification of that outcome, the
    single-settlement handle created by `wait()`, and `send`. The HTTP
    transport itself is an input: `Transport` says how the exchange
    ended. */
module Calls {
  import opened Js
  import opened Errors
  import opened Reads

  /** How the HTTP exchange of one `send` ended. */
  datatype Transport =
    | Ok(data: Value)                         // 2xx: the parsed body
    | ErrorStatus(status: int, data: Value)   // the server answered outside 2xx
    | NoResponse(message: string)             // sent, no answer received
    | SetupFailure(message: string)           // failed before it was sent

  /** The state of the promise `wait()` hands out. */
  datatype Settlement = Pending | Fulfilled(data: Value) | Rejected(reason: Thrown)

  /** A call unit: `handle` is `None` until `wait()` first runs; it then
      holds the settlement of the memoised promise. */
  datatype Call = Call(handle: Option<Settlement>)

  const Fresh: Call := Call(None)

  predicate Settled(c: Call) {
    c.handle.Some? && !c.handle.value.Pending?
  }

  /** `wait()`: the first call creates the promise; later calls hand out
      the same one. */
  function Wait(c: Call): (r: Call)
    ensures r.handle.Some?
    ensures c.handle.Some? ==> r == c
    ensures c.handle.None? ==> r.handle == Some(Pending)
  {
    if c.handle.Some? then c else Call(Some(Pending))
  }

  /** `this.resolve(v)` guarded by `if (this.resolve)`: a no-op without a
      promise, and a promise settles at most once. */
  function Resolve(c: Call, v: Value): Call {
    if c.handle == Some(Pending) then Call(Some(Fulfilled(v))) else c
  }

  /** `this.reject(x)`, with the same guard and first-settlement rule. */
  function Reject(c: Call, x: Thrown): Call {
    if c.handle == Some(Pending) then Call(Some(Rejected(x))) else c
  }

  datatype SettleOp = DoResolve(data: Value) | DoReject(reason: Thrown)

  function Apply(c: Call, op: SettleOp): Call {
    match op
    case DoResolve(v) => Resolve(c, v)
    case DoReject(x) => Reject(c, x)
  }

  function ApplyAll(c: Call, ops: seq<SettleOp>): Call
    decreases |ops|
  {
    if |ops| == 0 then c else ApplyAll(Apply(c, ops[0]), ops[1..])
  }

  /** Repeated `wait()` calls return the same promise and never disturb
      its settlement. */
  lemma WaitIsMemoised(c: Call)
    ensures Wait(Wait(c)) == Wait(c)
    ensures c.handle.Some? ==> Wait(c).handle == c.handle
  {
  }

  /** First write wins: once settled, no later resolve or reject changes
      the outcome. */
  lemma {:induction false} SettledIsFinal(c: Call, ops: seq<SettleOp>)
    requires Settled(c)
    ensures ApplyAll(c, ops) == c
    decreases |ops|
  {
    if |ops| > 0 {
      assert Apply(c, ops[0]) == c;
      SettledIsFinal(c, ops[1..]);
    }
  }

  /** A pending promise takes the outcome of the first settle operation,
      whatever follows it. */
  lemma {:induction false} FirstSettlementWins(ops: seq<SettleOp>)
    requires |ops| > 0
    ensures ApplyAll(Call(Some(Pending)), ops).handle == Some(
      match ops[0]
      case DoResolve(v) => Fulfilled(v)
      case DoReject(x) => Rejected(x))
  {
    var c1 := Apply(Call(Some(Pending)), ops[0]);
    assert Settled(c1);
    SettledIsFinal(c1, ops[1..]);
  }

  /** Without a promise nothing is ever settled. */
  lemma {:induction false} NoHandleNoSettlement(ops: seq<SettleOp>)
    ensures ApplyAll(Fresh, ops) == Fresh
    decreases |ops|
  {
    if |ops| > 0 {
      NoHandleNoSettlement(ops[1..]);
    }
  }

  /** What the `catch` block of `send` makes of a transport outcome. */
  datatype Verdict =
    | Deliver(data: Value)
      // the classified (or undefined) error, and `response` if one exists
    | Fail(thrown: Thrown, response: Option<Value>)
      // 429 with a manager: back off and wait in the queue
    | Retry
      // a TypeError raised while building the error, before any settlement
    | Crash

  function Classify(t: Transport, withManager: bool): (v: Verdict) {
    match t
    case Ok(d) => Deliver(d)
    case ErrorStatus(status, d) =>
      if status >= 400 then
        if status == 429 then
          if withManager then Retry else Fail(RaisedUndefined, Some(d))
        else if status == 404 then
          Fail(Raised(NewNetworkError(Str("Not Found"), Str("Not Found"), Num(status))), Some(d))
        else if status == 422 then
          match Prop(d, "message")
          case Abrupt(_) => Crash
          case Normal(message) => Fail(Raised(NewValidationError(message, Undefined)), Some(d))
        else
          match Prop(d, "message")
          case Abrupt(_) => Crash
          case Normal(message) =>
            match Prop(d, "error")
            case Abrupt(_) => Crash
            case Normal(error) => Fail(Raised(NewNetworkError(message, error, Num(status))), Some(d))
      else Fail(RaisedUndefined, Some(d))
    case NoResponse(message) =>
      Fail(Raised(NewNetworkError(Str(message), Str("No Response"), Null)), None)
    case SetupFailure(message) =>
      Fail(Raised(NewNetworkError(Str(message), Str("Invalid Request"), Null)), None)
  }

  /** The error classification as callers see it through `toJSON`. */
  lemma ClassificationTable(t: Transport, withManager: bool)
    ensures t.ErrorStatus? && t.status == 404 ==>
      Classify(t, withManager).Fail?
      && Classify(t, withManager).thrown.Raised?
      && ToJson(Classify(t, withManager).thrown.error)
         == map["error" := Str("Not Found"), "message" := Str("Not Found"), "status" := Num(404)]
    ensures t.ErrorStatus? && t.status == 422 && t.data.Obj? ==>
      var message := Lookup(t.data.fields, "message");
      && Classify(t, withManager).Fail?
      && Classify(t, withManager).thrown == Raised(ValidationError(ErrorMessage(message), message, Undefined))
    ensures t.ErrorStatus? && t.status >= 400 && t.status !in {404, 422, 429} && t.data.Obj? ==>
      var body := t.data.fields;
      && Classify(t, withManager).Fail?
      && Classify(t, withManager).thrown
         == Raised(NetworkError(ErrorMessage(Lookup(body, "message")), Lookup(body, "error"), Num(t.status)))
    ensures t.NoResponse? ==>
      Classify(t, withManager) == Fail(Raised(NetworkError(t.message, Str("No Response"), Null)), None)
    ensures t.SetupFailure? ==>
      Classify(t, withManager) == Fail(Raised(NetworkError(t.message, Str("Invalid Request"), Null)), None)
  {
  }

  /** The status a classified network error reports is the HTTP status
      whenever a response arrived and `null` exactly when no exchange
      completed; a 429 never surfaces as an error while a manager is
      present; only a nullish error body makes classification crash. */
  lemma StatusReportsTheExchange(t: Transport, withManager: bool)
    ensures
      (Classify(t, withManager).Fail? && Classify(t, withManager).thrown.Raised?
       && Classify(t, withManager).thrown.error.NetworkError?) ==>
        && (Classify(t, withManager).thrown.error.status == Null <==> !t.ErrorStatus?)
        && (t.ErrorStatus? ==> Classify(t, withManager).thrown.error.status == Num(t.status))
    ensures Classify(t, withManager).Retry? <==> t.ErrorStatus? && t.status == 429 && withManager
    ensures Classify(t, withManager).Crash? <==>
      t.ErrorStatus? && t.status >= 400 && t.status != 429 && t.status != 404 && Nullish(t.data)
    ensures Classify(t, withManager).Fail? ==> (Classify(t, withManager).response.Some? <==> t.ErrorStatus?)
  {
  }

  /** How one `send` ends. */
  datatype SendStep =
    | Returned(call: Call, data: Value)   // send returned `data`
    | Threw(call: Call, thrown: Thrown)   // send threw
    | Throttled(call: Call)               // send called backOff() and awaits enqueue(this)

  /** `send(request_manager)`. With a promise present, a classified error
      goes to `reject` and execution falls through to `resolve(response.data)`,
      which throws a TypeError when no response exists; without a promise
      the error is thrown. */
  function Send(c: Call, t: Transport, withManager: bool): (s: SendStep)
    ensures Settled(c) || c.handle.None? ==> s.call == c
    ensures t.Ok? ==> s.Returned? && s.data == t.data
    ensures c.handle == Some(Pending) && t.Ok? ==> s == Returned(Call(Some(Fulfilled(t.data))), t.data)
    ensures s.Throttled? <==> t.ErrorStatus? && t.status == 429 && withManager
    ensures s.Throttled? ==> s.call == c
    ensures c.handle.None? && Classify(t, withManager).Fail? ==>
      s == Threw(c, Classify(t, withManager).thrown)
    ensures c.handle.Some? && Classify(t, withManager).Fail? ==>
      && (s.Returned? <==> t.ErrorStatus?)
      && (s.Returned? ==> s.data == t.data)
      && (s.Threw? ==> s.thrown == TypeError)
    ensures c.handle == Some(Pending) && Classify(t, withManager).Fail? ==>
      s.call.handle == Some(Rejected(Classify(t, withManager).thrown))
    ensures Classify(t, withManager).Crash? ==> s == Threw(c, TypeError)
  {
    match Classify(t, withManager)
    case Deliver(d) => Returned(Resolve(c, d), d)
    case Retry => Throttled(c)
    case Crash => Threw(c, TypeError)
    case Fail(x, response) =>
      if c.handle.Some? then
        var rejected := Reject(c, x);
        match response
        case Some(d) => Returned(Resolve(rejected, d), d)
        case None => Threw(rejected, TypeError)
      else Threw(c, x)
  }

  /** The settle operations `send` performs, in order: `resolve` on
      success; `reject` then the fall-through `resolve(response.data)`
      after a classified error with a response; `reject` alone when there
      is no response, since reading `response.data` throws first; none on
      a retry or a crash. */
  function SettleOps(t: Transport, withManager: bool): seq<SettleOp> {
    match Classify(t, withManager)
    case Deliver(d) => [DoResolve(d)]
    case Retry => []
    case Crash => []
    case Fail(x, response) =>
      match response
      case Some(d) => [DoReject(x), DoResolve(d)]
      case None => [DoReject(x)]
  }

  /** `send` leaves the call exactly as running its settle operations
      through the promise's first-settlement rule would; so a pending
      promise takes the first of them, and a call without a promise is
      never settled. */
  lemma {:induction false} SendFollowsItsSettleOps(c: Call, t: Transport, withManager: bool)
    ensures Send(c, t, withManager).call == ApplyAll(c, SettleOps(t, withManager))
    ensures c.handle == Some(Pending) && |SettleOps(t, withManager)| > 0 ==>
      Send(c, t, withManager).call.handle == Some(
        match SettleOps(t, withManager)[0]
        case DoResolve(v) => Fulfilled(v)
        case DoReject(x) => Rejected(x))
  {
    var ops := SettleOps(t, withManager);
    if |ops| > 0 {
      if c.handle.None? {
        NoHandleNoSettlement(ops);
      } else if Settled(c) {
        SettledIsFinal(c, ops);
      } else {
        FirstSettlementWins(ops);
        var c1 := Apply(c, ops[0]);
        SettledIsFinal(c1, ops[1..]);
      }
    }
  }
}

=== FILE: client.dfy ===
/** The client facade (src/index.js): rate constants, the four HTTP verbs,
    the query/credential/payload assembly of `#request`, and the shape of
    a resource operation's run (the calls it issues and how it ends). The
    reply of each call is an input. */
module Client {
  import opened Js
  import opened Errors
  import RequestManager

  const RequestLimit: nat := 120
  const LimitInterval: nat := 60000
  const DefaultUrl: string := "https://api.convertkit.com/v3/"

  /** Constructor options after their defaults: `api_key` and
      `api_secret` default to `null`. */
  datatype Config = Config(baseUrl: string, apiKey: Value, apiSecret: Value)

  function NewConfig(url: Option<string>, apiKey: Value, apiSecret: Value): (c: Config) {
    Config(url.GetOr(DefaultUrl), OrDefault(apiKey, Null), OrDefault(apiSecret, Null))
  }

  /** The manager every client creates, with the request limit above.
      The constructor also passes `LimitInterval` (60000 ms) as
      `interval`, but the manager never reads it: its timers wait `limit`
      milliseconds, so the model's manager has no interval. */
  function ManagerFor(c: Config): (m: RequestManager.Manager)
    ensures m.limit == 120 && m.count == 0 && m.queue == [] && !m.draining
    ensures RequestManager.Valid(m)
  {
    RequestManager.New(RequestLimit)
  }

  datatype Method = GET | POST | PUT | DELETE

  /** The argument object of `#request`: `query` is `None` when the caller
      passed `undefined`/`null`; `data` is after its `= null` default. */
  datatype ApiCall = ApiCall(verb: Method, path: string, query: Option<Record>, data: Value)

  function Get(path: string, query: Option<Record>): (c: ApiCall) {
    ApiCall(GET, path, query, Null)
  }

  function Post(path: string, data: Value, query: Option<Record>): (c: ApiCall) {
    ApiCall(POST, path, query, OrDefault(data, Null))
  }

  function Put(path: string, data: Value, query: Option<Record>): (c: ApiCall) {
    ApiCall(PUT, path, query, OrDefault(data, Null))
  }

  function Delete(path: string, query: Option<Record>): (c: ApiCall) {
    ApiCall(DELETE, path, query, Null)
  }

  /** The query object after `#request` ran: a missing query becomes `{}`,
      then `api_secret` is added when set, otherwise `api_key` when set.
      The object is the caller's own, so the caller sees the change. */
  function Authorize(c: Config, query: Option<Record>): (q: Record) {
    var base := query.GetOr(map[]);
    if Truthy(c.apiSecret) then base["api_secret" := c.apiSecret]
    else if Truthy(c.apiKey) then base["api_key" := c.apiKey]
    else base
  }

  /** Credential precedence: at most one credential is written, the
      secret whenever it is set, the key only without a secret, and every
      other query key passes through untouched. */
  lemma AuthorizePrecedence(c: Config, query: Option<Record>)
    ensures var base := query.GetOr(map[]);
      var q := Authorize(c, query);
      && q.Keys - base.Keys <= {"api_secret", "api_key"}
      && (forall k :: k in base && k != "api_secret" && k != "api_key" ==> k in q && q[k] == base[k])
      && (Truthy(c.apiSecret) ==> q["api_secret"] == c.apiSecret && Lookup(q, "api_key") == Lookup(base, "api_key"))
      && (!Truthy(c.apiSecret) && Truthy(c.apiKey) ==>
            q["api_key"] == c.apiKey && Lookup(q, "api_secret") == Lookup(base, "api_secret"))
      && (!Truthy(c.apiSecret) && !Truthy(c.apiKey) ==> q == base)
  {
  }

  /** Reusing a query object that already went through `#request` (as
      pagination does, with a new page number) authorises it exactly as
      the fresh object would be. */
  lemma AuthorizeOnReusedQuery(c: Config, query: Record, key: string, v: Value)
    requires key != "api_secret" && key != "api_key"
    ensures Authorize(c, Some(Authorize(c, Some(query))[key := v])) == Authorize(c, Some(query[key := v]))
  {
  }

  /** The object `#request` hands to the manager. */
  datatype Payload = Payload(
    baseURL: string,
    url: string,
    params: Record,
    verb: Method,
    headers: map<string, string>,
    withCredentials: bool,
    responseType: string,
    data: Option<Value>)

  function PayloadOf(c: Config, call: ApiCall): (p: Payload)
    ensures p.baseURL == c.baseUrl && p.url == call.path && p.verb == call.verb
    ensures p.headers == map["Content-Type" := "application/json"]
    ensures !p.withCredentials && p.responseType == "json"
    ensures p.params == Authorize(c, call.query)
    ensures p.data.Some? <==> Truthy(call.data)
    ensures p.data.Some? ==> p.data.value == call.data
  {
    Payload(
      c.baseUrl,
      call.path,
      Authorize(c, call.query),
      call.verb,
      map["Content-Type" := "application/json"],
      false,
      "json",
      if Truthy(call.data) then Some(call.data) else None)
  }

  /** `Get` and `Delete` never send a body; `Post` and `Put` send theirs
      exactly when it is truthy. */
  lemma VerbsRouteData(c: Config, path: string, data: Value, query: Option<Record>)
    ensures PayloadOf(c, Get(path, query)).data == None
    ensures PayloadOf(c, Delete(path, query)).data == None
    ensures PayloadOf(c, Post(path, data, query)).data == (if Truthy(data) then Some(data) else None)
    ensures PayloadOf(c, Put(path, data, query)).data == (if Truthy(data) then Some(data) else None)
    ensures PayloadOf(c, Get(path, query)).verb == GET && PayloadOf(c, Post(path, data, query)).verb == POST
    ensures PayloadOf(c, Put(path, data, query)).verb == PUT && PayloadOf(c, Delete(path, query)).verb == DELETE
  {
  }

  /** A resource operation: the client calls it issued, in order, and
      how it ended. */
  datatype Run<T> = Run(calls: seq<ApiCall>, result: Completion<T>)

  /** One client call whose awaited reply is `reply`; a rejected reply
      propagates unchanged, a fulfilled one is handed to `andThen`. */
  function Exchange<T>(call: ApiCall, reply: Completion<Value>, andThen: Value -> Completion<T>): (r: Run<T>)
    ensures r.calls == [call]
    ensures reply.Abrupt? ==> r.result == Abrupt(reply.thrown)
    ensures reply.Normal? ==> r.result == andThen(reply.value)
  {
    match reply
    case Abrupt(x) => Run([call], Abrupt(x))
    case Normal(v) => Run([call], andThen(v))
  }

  /** A guard that throws before any client call is made. */
  function Refuse<T>(e: KitError): (r: Run<T>)
    ensures r.calls == [] && r.result == Abrupt(Raised(e))
  {
    Run([], Abrupt(Raised(e)))
  }
}

=== FILE: customfields.dfy ===
/** Custom fields (src/CustomFields/CustomField.js and
    src/CustomFields/index.js): the custom field entity with `update`,
    `delete` and `toJSON`, and the `CustomFields` resource. */
module CustomFields {
  import opened Js
  import opened Errors
  import opened Reads
  import opened Client

  /** A custom field instance: four properties copied as they are. */
  datatype CustomField = CustomField(id: Value, name: Value, key: Value, fieldLabel: Value)

  /** `new CustomField(client, custom_field)` on a payload record. */
  function New(r: Record): (cf: CustomField)
    ensures cf.id == Lookup(r, "id") && cf.name == Lookup(r, "name")
    ensures cf.key == Lookup(r, "key") && cf.fieldLabel == Lookup(r, "label")
  {
    CustomField(Lookup(r, "id"), Lookup(r, "name"), Lookup(r, "key"), Lookup(r, "label"))
  }

  /** `toJSON()`: all four properties. */
  function ToJson(cf: CustomField): (r: Record)
    ensures r.Keys == {"id", "label", "key", "name"}
  {
    map["id" := cf.id, "label" := cf.fieldLabel, "key" := cf.key, "name" := cf.name]
  }

  /** `toJSON` loses nothing: the constructor rebuilds the same field
      from it, and a payload with exactly these keys survives the trip
      the other way. */
  lemma JsonRoundTrip(cf: CustomField, r: Record)
    ensures New(ToJson(cf)) == cf
    ensures r.Keys == {"id", "label", "key", "name"} ==> ToJson(New(r)) == r
  {
    if r.Keys == {"id", "label", "key", "name"} {
      var back := ToJson(New(r));
      assert back["id"] == r["id"] && back["label"] == r["label"];
      assert back["key"] == r["key"] && back["name"] == r["name"];
    }
  }

  function FieldPath(id: Value): string {
    "/custom_fields/" + ToString(id)
  }

  /** The entity after a call, and the run that call produced. */
  datatype Updated = Updated(field: CustomField, run: Run<Value>)

  /** `customField.update(label)`: PUT the new label; once that succeeds
      the entity's label is the new one and the promise resolves `null`.
      A rejected PUT leaves the entity as it was. */
  function Update(cf: CustomField, newLabel: Value, reply: Completion<Value>): (u: Updated)
    ensures u.run.calls == [Put(FieldPath(cf.id), Obj(map["label" := newLabel]), None)]
    ensures reply.Abrupt? ==> u.run.result == Abrupt(reply.thrown) && u.field == cf
    ensures reply.Normal? ==> u.run.result == Normal(Null) && u.field == cf.(fieldLabel := newLabel)
    ensures ToJson(u.field) == if reply.Normal? then ToJson(cf)["label" := newLabel] else ToJson(cf)
  {
    var run := Exchange(Put(FieldPath(cf.id), Obj(map["label" := newLabel]), None), reply, (v: Value) => Normal(Null));
    Updated(if reply.Normal? then cf.(fieldLabel := newLabel) else cf, run)
  }

  /** `customField.delete()`: DELETE the field, resolve `null`. */
  function Delete(cf: CustomField, reply: Completion<Value>): (r: Run<Value>)
    ensures r.calls == [Client.Delete(FieldPath(cf.id), None)]
    ensures reply.Abrupt? ==> r.result == Abrupt(reply.thrown)
    ensures reply.Normal? ==> r.result == Normal(Null)
  {
    Exchange(Client.Delete(FieldPath(cf.id), None), reply, (v: Value) => Normal(Null))
  }

  // ---- the CustomFields resource ----

  /** `getAll()`: one field per entry of the reply's `custom_fields`. */
  function GetAll(reply: Completion<Value>): (r: Run<seq<CustomField>>)
    ensures r.calls == [Get("/custom_fields", None)]
    ensures reply.Abrupt? ==> r.result == Abrupt(reply.thrown)
    ensures reply.Normal? && Nullish(reply.value) ==> r.result == Abrupt(TypeError)
    ensures reply.Normal? && !Nullish(reply.value) ==>
      var listed := Lookup(FieldsOf(reply.value), "custom_fields");
      && (r.result.Normal? <==> Records(listed).Normal?)
      && (r.result.Normal? ==>
            && |r.result.value| == |listed.items|
            && forall i :: 0 <= i < |listed.items| ==> r.result.value[i] == New(FieldsOf(listed.items[i])))
  {
    Exchange(Get("/custom_fields", None), reply,
             (v: Value) => Then(Prop(v, "custom_fields"), (fields: Value) => Build(fields, New)))
  }

  /** The created fields read from a reply: an array gives one field per
      entry, any other non-nullish value is a single field. */
  function Created(v: Value): (r: Completion<seq<CustomField>>)
    ensures v.Arr? ==> r == Build(v, New)
    ensures !v.Arr? ==> (r.Abrupt? <==> Nullish(v))
    ensures !v.Arr? && !Nullish(v) ==> r == Normal([New(FieldsOf(v))])
    ensures r.Abrupt? ==> r.thrown == TypeError
  {
    if v.Arr? then Build(v, New)
    else if Nullish(v) then Abrupt(TypeError)
    else Normal([New(FieldsOf(v))])
  }

  /** `createCustomField(label)`: POST the label (one or several); the
      reply is one field or an array of them. */
  function CreateCustomField(newLabel: Value, reply: Completion<Value>): (r: Run<seq<CustomField>>)
    ensures r.calls == [Post("/custom_fields", Obj(map["label" := newLabel]), None)]
    ensures reply.Abrupt? ==> r.result == Abrupt(reply.thrown)
    ensures reply.Normal? ==> r.result == Created(reply.value)
    ensures r.result.Normal? && reply.Normal? && reply.value.Obj? ==> |r.result.value| == 1
  {
    Exchange(Post("/custom_fields", Obj(map["label" := newLabel]), None), reply, Created)
  }

  /** Every field the reply describes, in order, whichever shape it has:
      a single object counts as a one-entry array. */
  lemma CreatedSingleIsOneEntryArray(rec: Record)
    ensures Created(Obj(rec)) == Created(Arr([Obj(rec)]))
  {
    var viaArray := Created(Arr([Obj(rec)]));
    assert Records(Arr([Obj(rec)])).Normal?;
    assert viaArray.Normal? && |viaArray.value| == 1;
    assert viaArray.value[0] == New(rec);
    assert viaArray.value == [New(rec)];
  }

  /** `updateCustomField(custom_field_id, label)`: PUT, resolve `null`. */
  function UpdateCustomField(id: Value, newLabel: Value, reply: Completion<Value>): (r: Run<Value>)
    ensures r.calls == [Put(FieldPath(id), Obj(map["label" := newLabel]), None)]
    ensures reply.Abrupt? ==> r.result == Abrupt(reply.thrown)
    ensures reply.Normal? ==> r.result == Normal(Null)
  {
    Exchange(Put(FieldPath(id), Obj(map["label" := newLabel]), None), reply, (v: Value) => Normal(Null))
  }

  /** `deleteCustomField(custom_field_id)`: DELETE, resolve `null`. */
  function DeleteCustomField(id: Value, reply: Completion<Value>): (r: Run<Value>)
    ensures r.calls == [Client.Delete(FieldPath(id), None)]
    ensures reply.Abrupt? ==> r.result == Abrupt(reply.thrown)
    ensures reply.Normal? ==> r.result == Normal(Null)
  {
    Exchange(Client.Delete(FieldPath(id), None), reply, (v: Value) => Normal(Null))
  }

  /** The resource's update and delete issue the entity's request and
      resolve the same way; only the entity also updates its label. */
  lemma ResourceAgreesWithEntity(cf: CustomField, newLabel: Value, reply: Completion<Value>)
    ensures UpdateCustomField(cf.id, newLabel, reply) == Update(cf, newLabel, reply).run
    ensures DeleteCustomField(cf.id, reply) == Delete(cf, reply)
  {
  }
}

=== FILE: errors.dfy ===
/** The two classified error types the client raises
    (src/utils/ConvertKitNetworkError.js, src/utils/ConvertKitValidationError.js),
    their `toJSON` shapes, and the JavaScript exception channel: what a
    call can throw and how a computation ends. */
module Errors {
  import opened Js

  /** `message` is the text the `Error` base constructor stores; `name` is
      whatever value the subclass assigned. */
  datatype KitError =
    | NetworkError(message: string, name: Value, status: Value)
    | ValidationError(message: string, name: Value, properties: Value)

  /** What a JavaScript `throw` or promise rejection can carry here: a
      classified error, the value `undefined` (the request path leaves its
      `error` variable unset for some statuses), or the TypeError the
      engine raises when a property is read from `null`/`undefined`. */
  datatype Thrown = Raised(error: KitError) | RaisedUndefined | TypeError

  /** How a computation ended: with a value, or by throwing. */
  datatype Completion<T> = Normal(value: T) | Abrupt(thrown: Thrown)

  /** `await`-style sequencing: a throw skips the rest. */
  function Then<A, B>(c: Completion<A>, f: A -> Completion<B>): (r: Completion<B>)
    ensures c.Abrupt? ==> r == Abrupt(c.thrown)
    ensures c.Normal? ==> r == f(c.value)
  {
    match c
    case Abrupt(x) => Abrupt(x)
    case Normal(v) => f(v)
  }

  /** The `message` property `super(message)` leaves behind: an omitted
      (`undefined`) message keeps the inherited empty string, any other
      value is converted with `String`. */
  function ErrorMessage(arg: Value): string {
    if arg == Undefined then "" else ToString(arg)
  }

  /** `new ConvertKitNetworkError(message, error, status)`. */
  function NewNetworkError(message: Value, error: Value, status: Value): (e: KitError)
    ensures e.NetworkError?
    ensures message.Str? ==> e.message == message.s
    ensures e.name == error && e.status == status
  {
    NetworkError(ErrorMessage(message), error, status)
  }

  /** `new ConvertKitValidationError(message, properties)`: the name is
      the message argument itself. */
  function NewValidationError(message: Value, properties: Value): (e: KitError)
    ensures e.ValidationError?
    ensures e.name == message
    ensures message.Str? ==> e.message == message.s
    ensures message == Undefined ==> e.message == ""
    ensures e.properties == properties
  {
    ValidationError(ErrorMessage(message), message, properties)
  }

  /** `toJSON()` of either error class. */
  function ToJson(e: KitError): (r: Record)
    ensures r.Keys == {"error", "message", "status"} || r.Keys == {"error", "message", "properties"}
    ensures r["error"] == e.name && r["message"] == Str(e.message)
  {
    match e
    case NetworkError(m, n, s) => map["error" := n, "message" := Str(m), "status" := s]
    case ValidationError(m, n, p) => map["error" := n, "message" := Str(m), "properties" := p]
  }

  /** Reads an error back from its `toJSON` shape: the key set tells the
      two classes apart. */
  function FromJson(r: Record): Option<KitError> {
    if "message" !in r || !r["message"].Str? then None
    else if r.Keys == {"error", "message", "status"} then
      Some(NetworkError(r["message"].s, r["error"], r["status"]))
    else if r.Keys == {"error", "message", "properties"} then
      Some(ValidationError(r["message"].s, r["error"], r["properties"]))
    else None
  }

  /** `toJSON` loses nothing: every field of either error class can be
      read back from its JSON shape. */
  lemma JsonRoundTrip(e: KitError)
    ensures FromJson(ToJson(e)) == Some(e)
  {
    var r := ToJson(e);
    if e.NetworkError? {
      assert r.Keys == {"error", "message", "status"};
    } else {
      assert r.Keys == {"error", "message", "properties"};
      assert r.Keys != {"error", "message", "status"} by {
        assert "properties" in r.Keys;
      }
    }
  }

  /** A network error serialises to exactly `{error: name, message, status}`. */
  lemma NetworkErrorJson(message: string, error: Value, status: Value)
    ensures ToJson(NewNetworkError(Str(message), error, status))
         == map["error" := error, "message" := Str(message), "status" := status]
  {
  }

  /** A validation error's `error` field is the message argument,
      whatever its type, and repeats the `message` field when the argument
      is a string; an omitted message leaves `error` undefined and
      `message` empty. */
  lemma ValidationErrorJson(message: Value, properties: Value)
    ensures var r := ToJson(NewValidationError(message, properties));
      && r.Keys == {"error", "message", "properties"}
      && r["properties"] == properties
      && r["error"] == message
      && (message.Str? ==> r["error"] == r["message"] == message)
      && (message == Undefined ==> r["error"] == Undefined && r["message"] == Str(""))
  {
  }
}

=== FILE: forms.dfy ===
/** Forms (src/Forms/Form.js and src/Forms/index.js): the form entity,
    the `Forms` resource, their private copy of the subscription filter
    builder, and `addSubscriber` both as the code has it (the POST is not
    awaited) and as evidently intended. */
module Forms {
  import opened Js
  import opened Errors
  import opened Reads
  import opened Client
  import Pagination
  import SubscriptionFilter
  import Subscribers
  import Subscriptions

  /** A form instance: eleven properties copied as they are. */
  datatype Form = Form(
    id: Value,
    name: Value,
    createdAt: Value,
    kind: Value,
    url: Value,
    embedJs: Value,
    embedUrl: Value,
    title: Value,
    description: Value,
    signUpButtonText: Value,
    successMessage: Value)

  const Keys: set<string> := {"id", "name", "created_at", "type", "url", "embed_js", "embed_url",
                              "title", "description", "sign_up_button_text", "success_message"}

  /** The eleven properties under their payload names. */
  function Properties(f: Form): (r: Record)
    ensures r.Keys == Keys
  {
    map["id" := f.id, "name" := f.name, "created_at" := f.createdAt, "type" := f.kind, "url" := f.url,
        "embed_js" := f.embedJs, "embed_url" := f.embedUrl, "title" := f.title,
        "description" := f.description, "sign_up_button_text" := f.signUpButtonText,
        "success_message" := f.successMessage]
  }

  /** `new Form(client, form)` on a payload record. */
  function New(r: Record): (f: Form)
    ensures f.id == Lookup(r, "id") && f.name == Lookup(r, "name") && f.createdAt == Lookup(r, "created_at")
    ensures f.kind == Lookup(r, "type") && f.url == Lookup(r, "url") && f.embedJs == Lookup(r, "embed_js")
    ensures f.embedUrl == Lookup(r, "embed_url") && f.title == Lookup(r, "title")
    ensures f.description == Lookup(r, "description") && f.signUpButtonText == Lookup(r, "sign_up_button_text")
    ensures f.successMessage == Lookup(r, "success_message")
  {
    Form(Lookup(r, "id"), Lookup(r, "name"), Lookup(r, "created_at"), Lookup(r, "type"), Lookup(r, "url"),
         Lookup(r, "embed_js"), Lookup(r, "embed_url"), Lookup(r, "title"), Lookup(r, "description"),
         Lookup(r, "sign_up_button_text"), Lookup(r, "success_message"))
  }

  /** A form rebuilt from its own properties is the same form. */
  lemma PropertiesRoundTrip(f: Form)
    ensures New(Properties(f)) == f
  {
  }

  /** `Form.#buildFilters` / `Forms.#buildFilters`: the same two copies as
      the shared filter builder, but without its argument defaults. */
  function BuildFilters(filters: Record, initial: Record): (r: Record)
    ensures Lookup(r, "page") == Lookup(initial, "page")
  {
    var withOrder :=
      if Lookup(filters, "sort_order") == Str("asc") || Lookup(filters, "sort_order") == Str("desc")
      then initial["sort_order" := Lookup(filters, "sort_order")]
      else initial;
    if Lookup(filters, "subscriber_state") == Str("active") || Lookup(filters, "sort_order") == Str("cancelled")
    then withOrder["subscriber_state" := Lookup(filters, "subscriber_state")]
    else withOrder
  }

  /** The private copies build exactly what the shared builder builds
      when both arguments are given. */
  lemma BuildFiltersIsSubscriptionFilter(filters: Record, initial: Record)
    ensures BuildFilters(filters, initial) == SubscriptionFilter.BuildSubscriptionFilter(Some(filters), Some(initial))
  {
  }

  /** The first page query of a form's subscriptions. */
  function SubscriptionsQuery(query: Record): (q: Record)
    ensures q == SubscriptionFilter.BuildSubscriptionFilter(Some(query), Some(map["page" := Num(0)]))
    ensures Lookup(q, "page") == Num(0)
  {
    BuildFiltersIsSubscriptionFilter(query, map["page" := Num(0)]);
    BuildFilters(query, map["page" := Num(0)])
  }

  function FormPath(id: Value): string {
    "forms/" + ToString(id)
  }

  /** `form.getAllSubscriptions(query = {})`. */
  function GetAllSubscriptions(f: Form, query: Option<Record>, replies: seq<Completion<Pagination.Page>>): (r: Run<seq<Subscriptions.Subscription>>)
    requires Pagination.Ends(0, replies)
    ensures Pagination.StopsAfter(0, replies, |r.calls|)
    ensures forall i :: 0 <= i < |r.calls| ==>
      r.calls[i] == Get(FormPath(f.id) + "/subscriptions", Some(SubscriptionsQuery(query.GetOr(map[]))["page" := Num(i + 1)]))
    ensures r.result.Abrupt? <==> replies[|r.calls| - 1].Abrupt?
    ensures r.result.Abrupt? ==> r.result.thrown == replies[|r.calls| - 1].thrown
    ensures r.result.Normal? ==> r.result.value == Map(Pagination.Entries(replies[..|r.calls|]), Subscriptions.New)
  {
    Pagination.CollectFromStart(FormPath(f.id) + "/subscriptions", SubscriptionsQuery(query.GetOr(map[])),
                                replies, Subscriptions.New)
  }

  // ---- the Forms resource ----

  /** `getAll()`: one form per entry of the reply's `forms`. */
  function GetAll(reply: Completion<Value>): (r: Run<seq<Form>>)
    ensures r.calls == [Get("/forms", None)]
    ensures reply.Abrupt? ==> r.result == Abrupt(reply.thrown)
    ensures reply.Normal? && Nullish(reply.value) ==> r.result == Abrupt(TypeError)
    ensures reply.Normal? && !Nullish(reply.value) ==>
      var listed := Lookup(FieldsOf(reply.value), "forms");
      && (r.result.Normal? <==> Records(listed).Normal?)
      && (r.result.Normal? ==>
            && |r.result.value| == |listed.items|
            && forall i :: 0 <= i < |listed.items| ==> r.result.value[i] == New(FieldsOf(listed.items[i])))
  {
    Exchange(Get("/forms", None), reply, (v: Value) => Then(Prop(v, "forms"), (forms: Value) => Build(forms, New)))
  }

  /** `getAllFormSubscriptions(form_id, query = {})`. */
  function GetAllFormSubscriptions(formId: Value, query: Option<Record>, replies: seq<Completion<Pagination.Page>>): (r: Run<seq<Subscriptions.Subscription>>)
    requires Pagination.Ends(0, replies)
    ensures Pagination.StopsAfter(0, replies, |r.calls|)
    ensures forall i :: 0 <= i < |r.calls| ==>
      r.calls[i] == Get(FormPath(formId) + "/subscriptions", Some(SubscriptionsQuery(query.GetOr(map[]))["page" := Num(i + 1)]))
    ensures r.result.Abrupt? <==> replies[|r.calls| - 1].Abrupt?
    ensures r.result.Abrupt? ==> r.result.thrown == replies[|r.calls| - 1].thrown
    ensures r.result.Normal? ==> r.result.value == Map(Pagination.Entries(replies[..|r.calls|]), Subscriptions.New)
  {
    Pagination.CollectFromStart(FormPath(formId) + "/subscriptions", SubscriptionsQuery(query.GetOr(map[])),
                                replies, Subscriptions.New)
  }

  /** The entity's and the resource's subscription listings of one form
      are the same walk. */
  lemma FormSubscriptionsAgreeWithResource(f: Form, query: Option<Record>, replies: seq<Completion<Pagination.Page>>)
    requires Pagination.Ends(0, replies)
    ensures GetAllSubscriptions(f, query, replies) == GetAllFormSubscriptions(f.id, query, replies)
  {
  }

  // ---- addSubscriber ----

  /** What destructuring reads from the promise `Post` returns when it is
      not awaited: a promise has no own `subscription` property. */
  const UnawaitedPromise: Value := Obj(map[])

  /** The subscription read out of a (fulfilled) reply. */
  function SubscriptionOf(v: Value): Completion<Subscriptions.Subscription> {
    Then(Prop(v, "subscription"), Subscriptions.FromValue)
  }

  /** `forms.addSubscriber(form_id, details)` as written: the POST is
      issued, but the subscription is read from the un-awaited promise, so
      the constructor reads `undefined.id` whatever the server answers. */
  function AddSubscriberAsWritten(formId: Value, details: Value, reply: Completion<Value>): (r: Run<Subscriptions.Subscription>)
    ensures r.calls == [Post("/forms/" + ToString(formId) + "/subscribe", details, None)]
    ensures r.result == Abrupt(TypeError)
  {
    Run([Post("/forms/" + ToString(formId) + "/subscribe", details, None)], SubscriptionOf(UnawaitedPromise))
  }

  /** `form.addSubscriber(details)` as written, with the same defect. */
  function FormAddSubscriberAsWritten(f: Form, details: Value, reply: Completion<Value>): (r: Run<Subscriptions.Subscription>)
    ensures r.calls == [Post(FormPath(f.id) + "/subscribe", details, None)]
    ensures r.result == Abrupt(TypeError)
  {
    Run([Post(FormPath(f.id) + "/subscribe", details, None)], SubscriptionOf(UnawaitedPromise))
  }

  /** `forms.addSubscriber(form_id, details)` with the reply awaited: the
      reply's `subscription`, as `tag.addSubscriber` reads it. */
  function AddSubscriber(formId: Value, details: Value, reply: Completion<Value>): (r: Run<Subscriptions.Subscription>)
    ensures r.calls == [Post("/forms/" + ToString(formId) + "/subscribe", details, None)]
    ensures reply.Abrupt? ==> r.result == Abrupt(reply.thrown)
    ensures forall rec :: Subscribers.Carries(reply, "subscription", rec) ==> r.result == Normal(Subscriptions.New(rec))
    ensures reply.Normal? && reply.value.Obj? ==>
      (r.result.Abrupt? <==> Nullish(Lookup(reply.value.fields, "subscription")))
  {
    Exchange(Post("/forms/" + ToString(formId) + "/subscribe", details, None), reply, SubscriptionOf)
  }

  /** `form.addSubscriber(details)` with the reply awaited. */
  function FormAddSubscriber(f: Form, details: Value, reply: Completion<Value>): (r: Run<Subscriptions.Subscription>)
    ensures r.calls == [Post(FormPath(f.id) + "/subscribe", details, None)]
    ensures reply.Abrupt? ==> r.result == Abrupt(reply.thrown)
    ensures forall rec :: Subscribers.Carries(reply, "subscription", rec) ==> r.result == Normal(Subscriptions.New(rec))
    ensures reply.Normal? && reply.value.Obj? ==>
      (r.result.Abrupt? <==> Nullish(Lookup(reply.value.fields, "subscription")))
  {
    Exchange(Post(FormPath(f.id) + "/subscribe", details, None), reply, SubscriptionOf)
  }

  /** The discrepancy on a concrete successful exchange: the server
      answers with a subscription, the code as written still rejects with
      a TypeError, while the awaited version returns that subscription. */
  lemma AddSubscriberLosesTheReply(formId: Value, details: Value)
    ensures var reply := Normal(Obj(map["subscription" := Obj(map["id" := Num(7)])]));
      && AddSubscriberAsWritten(formId, details, reply).result == Abrupt(TypeError)
      && AddSubscriber(formId, details, reply).result == Normal(Subscriptions.New(map["id" := Num(7)]))
      && AddSubscriber(formId, details, reply).result.value.id == Num(7)
  {
    var reply := Normal(Obj(map["subscription" := Obj(map["id" := Num(7)])]));
    assert Subscribers.Carries(reply, "subscription", map["id" := Num(7)]);
  }

  /** For every reply, the two versions issue the same request and agree
      exactly when the awaited version fails with a TypeError itself. */
  lemma AddSubscriberDiffersOnlyInTheResult(formId: Value, details: Value, reply: Completion<Value>)
    ensures AddSubscriberAsWritten(formId, details, reply).calls == AddSubscriber(formId, details, reply).calls
    ensures AddSubscriberAsWritten(formId, details, reply).result == AddSubscriber(formId, details, reply).result
      <==> AddSubscriber(formId, details, reply).result == Abrupt(TypeError)
  {
  }

  /** The same discrepancy for the entity's `addSubscriber`. */
  lemma FormAddSubscriberLosesTheReply(f: Form, details: Value, rec: Record)
    ensures var reply := Normal(Obj(map["subscription" := Obj(rec)]));
      && FormAddSubscriberAsWritten(f, details, reply).result == Abrupt(TypeError)
      && FormAddSubscriber(f, details, reply).result == Normal(Subscriptions.New(rec))
  {
    var reply := Normal(Obj(map["subscription" := Obj(rec)]));
    assert Subscribers.Carries(reply, "subscription", rec);
  }
}

=== FILE: js.dfy ===
/** JavaScript values as the client sees them: JSON-like data with
    `undefined`, truthiness, property reads on plain objects, the
    string conversion used by template literals and `Error`, and
    `Array.prototype.find`. Numbers are integers; NaN and fractions are
    outside the model. */
module Js {

  datatype Option<T> = None | Some(value: T) {
    function GetOr(default: T): T {
      match this
      case Some(v) => v
      case None => default
    }
  }

  datatype Value =
    | Undefined
    | Null
    | Bool(b: bool)
    | Num(n: int)
    | Str(s: string)
    | Arr(items: seq<Value>)
    | Obj(fields: map<string, Value>)

  /** A plain object: its own enumerable properties. */
  type Record = map<string, Value>

  /** The entry of `key`, `None` when the key is absent. */
  function At(r: Record, key: string): Option<Value> {
    if key in r then Some(r[key]) else None
  }

  /** Two objects with the same entry under every key are the same. */
  lemma SameEntries(a: Record, b: Record)
    requires forall k :: At(a, k) == At(b, k)
    ensures a == b
  {
    assert a.Keys == b.Keys by {
      forall k ensures k in a <==> k in b {
        assert At(a, k) == At(b, k);
      }
    }
    forall k | k in a ensures a[k] == b[k] {
      assert At(a, k) == At(b, k);
    }
  }

  /** JavaScript truthiness: `undefined`, `null`, `false`, `0` and `""`
      are falsy, everything else (every array and object) is truthy. */
  predicate Truthy(v: Value) {
    match v
    case Undefined => false
    case Null => false
    case Bool(b) => b
    case Num(n) => n != 0
    case Str(s) => s != ""
    case Arr(_) => true
    case Obj(_) => true
  }

  predicate Nullish(v: Value) {
    v.Undefined? || v.Null?
  }

  /** `r.key` on a plain object: a missing key reads as `undefined`. */
  function Lookup(r: Record, key: string): Value {
    if key in r then r[key] else Undefined
  }

  /** The properties a non-nullish value exposes to a property read:
      an object's own fields; a primitive or an array has none of the
      keys this client reads. */
  function FieldsOf(v: Value): Record {
    if v.Obj? then v.fields else map[]
  }

  /** A destructuring default `{ key = d }`: applies only to `undefined`. */
  function OrDefault(v: Value, d: Value): Value {
    if v == Undefined then d else v
  }

  /** Decimal text of an integer, as `String(n)` prints it. */
  function Decimal(n: int): (r: string)
    decreases if n < 0 then 1 - n else n
  {
    if n < 0 then "-" + Decimal(-n)
    else if n < 10 then [Digit(n)]
    else Decimal(n / 10) + [Digit(n % 10)]
  }

  function Digit(d: int): char
    requires 0 <= d < 10
  {
    "0123456789"[d]
  }

  /** `String(v)`, the conversion a template literal applies. Arrays join
      their elements with "," and print `null`/`undefined` elements as "". */
  function ToString(v: Value): string
    decreases v, 1, 0
  {
    match v
    case Undefined => "undefined"
    case Null => "null"
    case Bool(b) => if b then "true" else "false"
    case Num(n) => Decimal(n)
    case Str(s) => s
    case Arr(items) => Join(v, 0)
    case Obj(_) => "[object Object]"
  }

  function Join(v: Value, i: nat): string
    requires v.Arr? && i <= |v.items|
    decreases v, 0, |v.items| - i
  {
    if i == |v.items| then ""
    else
      var x := v.items[i];
      var text := if Nullish(x) then "" else ToString(x);
      (if i == 0 then "" else ",") + text + Join(v, i + 1)
  }

  /** `xs.map(f)`. */
  function Map<A, B>(xs: seq<A>, f: A -> B): (r: seq<B>)
    ensures |r| == |xs|
    ensures forall i :: 0 <= i < |xs| ==> r[i] == f(xs[i])
  {
    seq(|xs|, i requires 0 <= i < |xs| => f(xs[i]))
  }

  /** `Array.prototype.find` as an index: the first position whose element
      satisfies `p`, or `None` when there is none. */
  function Find<T>(s: seq<T>, p: T -> bool): (r: Option<nat>)
    ensures r.Some? ==> r.value < |s| && p(s[r.value])
    ensures r.Some? ==> forall j :: 0 <= j < r.value ==> !p(s[j])
    ensures r.None? ==> forall j :: 0 <= j < |s| ==> !p(s[j])
    decreases |s|
  {
    if |s| == 0 then None
    else if p(s[0]) then Some(0)
    else
      match Find(s[1..], p)
      case None => None
      case Some(k) => Some(k + 1)
  }
}

=== FILE: pagination.dfy ===
/** `paginatedRequest` (src/utils/paginatedRequest.js) and the loop every
    "get all" helper wraps around it: request page after page with the
    same options object, keep going while the reply's `total_pages`
    exceeds the page just requested, and collect one entity per entry of
    each reply, in order. Each server reply is an input. */
module Pagination {
  import opened Js
  import opened Errors
  import opened Client

  /** A page reply as the loop reads it: `total_pages` and the array of
      entries the caller iterates (`subscribers` or `subscriptions`). */
  datatype Page = Page(totalPages: int, entries: seq<Record>)

  /** Page numbers the loop can increment arithmetically. */
  predicate NumericPage(page: Value) {
    page.Num? || !Truthy(page)
  }

  /** `options.page = options.page || 0`. */
  function StartPage(page: Value): (p: int)
    requires NumericPage(page)
    ensures !Truthy(page) ==> p == 0
    ensures Truthy(page) ==> p == page.n
  {
    if Truthy(page) then page.n else 0
  }

  /** The `do … while (response.total_pages > options.page)` condition
      fails after requesting page `p`, or the request rejected. */
  predicate Stops(p: int, reply: Completion<Page>) {
    reply.Abrupt? || reply.value.totalPages <= p
  }

  /** The loop started after page `page` stops within the given replies. */
  predicate Ends(page: int, replies: seq<Completion<Page>>) {
    exists k :: 0 <= k < |replies| && Stops(page + 1 + k, replies[k])
  }

  /** The loop started after page `page` stops at its `n`-th request:
      every earlier reply asked for another page, the `n`-th did not. */
  predicate StopsAfter(page: int, replies: seq<Completion<Page>>, n: int) {
    && 1 <= n <= |replies|
    && (forall i :: 0 <= i < n - 1 ==> !Stops(page + 1 + i, replies[i]))
    && Stops(page + n, replies[n - 1])
  }

  lemma EndsOnTail(page: int, replies: seq<Completion<Page>>)
    requires Ends(page, replies) && !Stops(page + 1, replies[0])
    ensures Ends(page + 1, replies[1..])
  {
    var k :| 0 <= k < |replies| && Stops(page + 1 + k, replies[k]);
    assert k > 0;
    assert Stops(page + 1 + 1 + (k - 1), replies[1..][k - 1]);
  }

  /** The entries of the fulfilled replies, concatenated in order. */
  function Entries(replies: seq<Completion<Page>>): seq<Record>
    decreases |replies|
  {
    if |replies| == 0 then []
    else (if replies[0].Normal? then replies[0].value.entries else []) + Entries(replies[1..])
  }

  /** The pages requested, the entries seen, and the rejection that ended
      the loop, if one did. */
  datatype Walk = Walk(pages: seq<int>, entries: seq<Record>, failure: Option<Thrown>)

  /** The generator from page `page` on: each request asks for the page
      after the previous one; at least one request is made. The last page
      requested is what `options.page` holds afterwards. */
  function WalkFrom(page: int, replies: seq<Completion<Page>>): (w: Walk)
    requires Ends(page, replies)
    ensures 1 <= |w.pages| <= |replies|
    ensures forall i :: 0 <= i < |w.pages| ==> w.pages[i] == page + 1 + i
    ensures forall i :: 0 <= i < |w.pages| - 1 ==> !Stops(page + 1 + i, replies[i])
    ensures Stops(page + |w.pages|, replies[|w.pages| - 1])
    ensures w.failure.Some? <==> replies[|w.pages| - 1].Abrupt?
    ensures w.failure.Some? ==> w.failure.value == replies[|w.pages| - 1].thrown
    ensures w.entries == Entries(replies[..|w.pages|])
    ensures StopsAfter(page, replies, |w.pages|)
    decreases |replies|
  {
    var p := page + 1;
    match replies[0]
    case Abrupt(x) =>
      assert replies[..1] == [replies[0]];
      Walk([p], [], Some(x))
    case Normal(r) =>
      if r.totalPages > p then
        EndsOnTail(page, replies);
        var rest := WalkFrom(p, replies[1..]);
        var n := |rest.pages|;
        assert replies[..n + 1][1..] == replies[1..][..n];
        Walk([p] + rest.pages, r.entries + rest.entries, rest.failure)
      else
        assert replies[..1] == [replies[0]];
        Walk([p], r.entries, None)
  }

  function Max(a: int, b: int): int {
    if a < b then b else a
  }

  /** With a constant `total_pages` of T, starting after page s, the
      pages requested are exactly s+1 … max(s+1, T). */
  lemma ConstantTotalPages(page: int, total: int, replies: seq<Completion<Page>>)
    requires forall i :: 0 <= i < |replies| ==> replies[i].Normal? && replies[i].value.totalPages == total
    requires |replies| >= Max(page + 1, total) - page
    ensures Ends(page, replies)
    ensures |WalkFrom(page, replies).pages| == Max(page + 1, total) - page
    ensures forall i :: 0 <= i < |WalkFrom(page, replies).pages| ==> WalkFrom(page, replies).pages[i] == page + 1 + i
    ensures WalkFrom(page, replies).failure == None
  {
    var k := Max(page + 1, total) - page - 1;
    assert Stops(page + 1 + k, replies[k]);
    var w := WalkFrom(page, replies);
    if |w.pages| > 1 {
      assert !Stops(page + |w.pages| - 1, replies[|w.pages| - 2]);
    }
  }

  /** The GET calls the loop issues: the same path, the options object
      with `page` set to each page in turn. */
  function PageCalls(path: string, options: Record, pages: seq<int>): (cs: seq<ApiCall>)
    ensures |cs| == |pages|
    ensures forall i :: 0 <= i < |pages| ==> cs[i] == Get(path, Some(options["page" := Num(pages[i])]))
  {
    seq(|pages|, i requires 0 <= i < |pages| => Get(path, Some(options["page" := Num(pages[i])])))
  }

  /** A "get all" helper: walk the pages of `path` with `options` and
      build one entity with `make` per entry, pages concatenated in the
      order requested. A rejected page rejects the whole helper. */
  function Collect<T>(path: string, options: Record, replies: seq<Completion<Page>>, make: Record -> T): (r: Run<seq<T>>)
    requires NumericPage(Lookup(options, "page"))
    requires Ends(StartPage(Lookup(options, "page")), replies)
    ensures StopsAfter(StartPage(Lookup(options, "page")), replies, |r.calls|)
    ensures forall i :: 0 <= i < |r.calls| ==>
      r.calls[i] == Get(path, Some(options["page" := Num(StartPage(Lookup(options, "page")) + 1 + i)]))
    ensures r.result.Abrupt? <==> replies[|r.calls| - 1].Abrupt?
    ensures r.result.Abrupt? ==> r.result.thrown == replies[|r.calls| - 1].thrown
    ensures r.result.Normal? ==> r.result.value == Map(Entries(replies[..|r.calls|]), make)
  {
    var start := StartPage(Lookup(options, "page"));
    var w := WalkFrom(start, replies);
    var calls := PageCalls(path, options, w.pages);
    assert |calls| == |w.pages|;
    Run(calls, if w.failure.Some? then Abrupt(w.failure.value) else Normal(Map(w.entries, make)))
  }

  /** `Collect` from a query whose `page` starts at 0, as every "get all"
      helper builds it: the i-th request (from 0) asks for page i + 1. */
  function CollectFromStart<T>(path: string, options: Record, replies: seq<Completion<Page>>, make: Record -> T): (r: Run<seq<T>>)
    requires Lookup(options, "page") == Num(0)
    requires Ends(0, replies)
    ensures StopsAfter(0, replies, |r.calls|)
    ensures forall i :: 0 <= i < |r.calls| ==> r.calls[i] == Get(path, Some(options["page" := Num(i + 1)]))
    ensures r.result.Abrupt? <==> replies[|r.calls| - 1].Abrupt?
    ensures r.result.Abrupt? ==> r.result.thrown == replies[|r.calls| - 1].thrown
    ensures r.result.Normal? ==> r.result.value == Map(Entries(replies[..|r.calls|]), make)
  {
    Collect(path, options, replies, make)
  }
}

=== FILE: reads.dfy ===
/** Property reads that JavaScript turns into a TypeError when the value
    read from is `null` or `undefined`: plain reads, destructuring and
    `Array.prototype.map` over a reply. */
module Reads {
  import opened Js
  import opened Errors

  /** `v.key` (or `const { key } = v`). */
  function Prop(v: Value, key: string): (r: Completion<Value>)
    ensures r.Abrupt? <==> Nullish(v)
    ensures r.Abrupt? ==> r.thrown == TypeError
    ensures v.Obj? ==> r == Normal(Lookup(v.fields, key))
  {
    if Nullish(v) then Abrupt(TypeError) else Normal(Lookup(FieldsOf(v), key))
  }

  /** `v?.key`: optional chaining reads `undefined` from a nullish value. */
  function OptionalProp(v: Value, key: string): (r: Value)
    ensures Nullish(v) ==> r == Undefined
    ensures !Nullish(v) ==> Prop(v, key) == Normal(r)
  {
    if Nullish(v) then Undefined else Lookup(FieldsOf(v), key)
  }

  /** `v?.[0]`: the first element of an array, property "0" of an object,
      the first character of a string, `undefined` otherwise. */
  function OptionalFirst(v: Value): (r: Value)
    ensures v.Arr? && |v.items| > 0 ==> r == v.items[0]
    ensures v.Arr? && |v.items| == 0 ==> r == Undefined
    ensures Nullish(v) ==> r == Undefined
  {
    match v
    case Arr(items) => if |items| > 0 then items[0] else Undefined
    case Obj(m) => Lookup(m, "0")
    case Str(s) => if |s| > 0 then Str([s[0]]) else Undefined
    case _ => Undefined
  }

  /** The entries of `xs.map(x => new Entity(client, x))` as the records
      each constructor reads: `xs` must be an array (anything else has no
      `map`) and no entry may be nullish (the constructor reads its
      properties). */
  function Records(v: Value): (r: Completion<seq<Record>>)
    ensures r.Normal? <==> v.Arr? && forall i :: 0 <= i < |v.items| ==> !Nullish(v.items[i])
    ensures r.Abrupt? ==> r.thrown == TypeError
    ensures r.Normal? ==>
      && |r.value| == |v.items|
      && forall i :: 0 <= i < |v.items| ==> r.value[i] == FieldsOf(v.items[i])
  {
    if v.Arr? && forall i :: 0 <= i < |v.items| ==> !Nullish(v.items[i]) then
      Normal(seq(|v.items|, i requires 0 <= i < |v.items| => FieldsOf(v.items[i])))
    else Abrupt(TypeError)
  }

  /** `xs.map(x => new Entity(client, x))`, with `make` the constructor. */
  function Build<T>(v: Value, make: Record -> T): (r: Completion<seq<T>>)
    ensures r.Abrupt? <==> Records(v).Abrupt?
    ensures r.Abrupt? ==> r.thrown == TypeError
    ensures r.Normal? ==>
      && |r.value| == |v.items|
      && forall i :: 0 <= i < |v.items| ==> r.value[i] == make(FieldsOf(v.items[i]))
  {
    Then(Records(v), (rs: seq<Record>) => Normal(Map(rs, make)))
  }

  /** `new Entity(client, v)` for an entity whose constructor reads the
      properties of its argument: a nullish argument throws. */
  function Construct<T>(v: Value, make: Record -> T): (r: Completion<T>)
    ensures r.Abrupt? <==> Nullish(v)
    ensures r.Abrupt? ==> r.thrown == TypeError
    ensures r.Normal? ==> r.value == make(FieldsOf(v))
  {
    if Nullish(v) then Abrupt(TypeError) else Normal(make(FieldsOf(v)))
  }
}

=== FILE: request_manager.dfy ===
/** The rate-limit governor (src/utils/RequestManager.js) as an event
    driven state machine over a dispatch counter, a limit and an
    insertion-ordered queue of call identities. Timers and promise
    interleaving are replaced by explicit events: a new request, the
    window timer firing (`reset`), and one step of a running drain (the
    completion of the `send` the drain is awaiting). The counter counts a
    call when it is dispatched: `processQueue` is not awaited, so its
    `request_count++` runs before the first `await`. */
module RequestManager {
  import opened Js
  import opened Errors
  import opened Calls

  /** `queue` is the `Set` in insertion order; `calls` holds every call
      unit the manager has created, by identity; `draining` says whether
      a `processQueue` loop is running. */
  datatype Manager = Manager(
    count: nat,
    limit: nat,
    queue: seq<nat>,
    calls: map<nat, Call>,
    nextId: nat,
    draining: bool)

  /** `new RequestManager({ limit })`: nothing dispatched, nothing queued.
      (A `null` limit behaves as 0 in every comparison the class makes.) */
  function New(limit: nat): (m: Manager) {
    Manager(0, limit, [], map[], 0, false)
  }

  predicate NoDuplicates(q: seq<nat>) {
    forall i, j :: 0 <= i < j < |q| ==> q[i] != q[j]
  }

  /** What every reachable state satisfies: a `Set` holds no duplicates,
      every queued call exists and has had `wait()` called on it, fresh
      identities are fresh, and a running drain has something to visit,
      a positive limit, and its call in flight already counted. */
  predicate Valid(m: Manager) {
    && NoDuplicates(m.queue)
    && (forall i :: 0 <= i < |m.queue| ==> m.queue[i] in m.calls && m.calls[m.queue[i]].handle.Some?)
    && (forall id :: id in m.calls ==> id < m.nextId)
    && (m.draining ==> |m.queue| > 0 && 0 < m.limit && 0 < m.count)
  }

  lemma NewIsValid(limit: nat)
    ensures Valid(New(limit)) && New(limit).count == 0 && New(limit).queue == []
  {
  }

  /** `enqueue(request)`: takes the call's memoised promise and adds the
      call to the set; adding a member again changes nothing. */
  function Enqueue(m: Manager, id: nat): (r: Manager)
    requires id in m.calls
    ensures r.count == m.count && r.limit == m.limit && r.nextId == m.nextId && r.draining == m.draining
    ensures id in m.queue ==> r.queue == m.queue
    ensures id !in m.queue ==> r.queue == m.queue + [id]
    ensures r.calls == m.calls[id := Wait(m.calls[id])]
    ensures Valid(m) ==> Valid(r)
  {
    var r := m.(calls := m.calls[id := Wait(m.calls[id])],
                queue := if id in m.queue then m.queue else m.queue + [id]);
    assert Valid(m) ==> Valid(r) by {
      if Valid(m) {
        forall i | 0 <= i < |r.queue|
          ensures r.queue[i] in r.calls && r.calls[r.queue[i]].handle.Some?
        {
          if r.queue[i] != id {
            assert i < |m.queue| && r.queue[i] == m.queue[i];
          }
        }
      }
    }
    r
  }

  /** Enqueueing twice is enqueueing once: same queue, same promise. */
  lemma EnqueueIsIdempotent(m: Manager, id: nat)
    requires id in m.calls
    ensures Enqueue(Enqueue(m, id), id) == Enqueue(m, id)
  {
    var once := Enqueue(m, id);
    assert id in once.queue;
    WaitIsMemoised(m.calls[id]);
  }

  /** `backOff()`: the counter jumps to the limit whatever it was. */
  function BackOff(m: Manager): (r: Manager)
    ensures r.count == r.limit == m.limit
    ensures r.queue == m.queue && r.calls == m.calls && r.draining == m.draining
  {
    m.(count := m.limit)
  }

  /** What `request(payload)` tells its caller straight away: the result
      of an immediate send, or that the caller now awaits the promise of
      the call (its settlement in `calls`). */
  datatype Answer = Answered(result: Completion<Value>) | Queued

  datatype Admission = Admission(next: Manager, id: nat, answer: Answer)

  /** `request(payload)`: a new call unit is queued when `count >= limit`;
      otherwise the counter is incremented and the call is sent at once,
      with `t` the outcome of its HTTP exchange. A 429 answer backs off
      and queues the call. */
  function Request(m: Manager, t: Transport): (a: Admission)
    requires Valid(m)
    ensures a.id == m.nextId && a.id !in m.calls && a.id in a.next.calls
    ensures forall id :: id in m.calls ==> id in a.next.calls && a.next.calls[id] == m.calls[id]
    ensures a.next.limit == m.limit && a.next.draining == m.draining
    ensures m.count >= m.limit ==>
      && a.next.count == m.count
      && a.next.queue == m.queue + [a.id]
      && a.next.calls[a.id] == Call(Some(Pending))
      && a.answer == Queued
    ensures m.count < m.limit && !(t.ErrorStatus? && t.status == 429) ==>
      && a.next.count == m.count + 1
      && a.next.queue == m.queue
      && a.answer.Answered?
    ensures m.count < m.limit && t.ErrorStatus? && t.status == 429 ==>
      && a.next.count == m.limit
      && a.next.queue == m.queue + [a.id]
      && a.next.calls[a.id] == Call(Some(Pending))
      && a.answer == Queued
    ensures m.count < m.limit && t.Ok? ==> a.answer == Answered(Normal(t.data))
    ensures m.count < m.limit && Classify(t, true).Fail? ==>
      a.answer == Answered(Abrupt(Classify(t, true).thrown))
    ensures m.count < m.limit && Classify(t, true).Crash? ==> a.answer == Answered(Abrupt(TypeError))
    ensures m.count < m.limit && !(t.ErrorStatus? && t.status == 429) ==> a.next.calls[a.id] == Fresh
    ensures Valid(a.next)
  {
    var id := m.nextId;
    var m1 := m.(calls := m.calls[id := Fresh], nextId := id + 1);
    assert id !in m.queue by {
      assert forall i :: 0 <= i < |m.queue| ==> m.queue[i] != id;
    }
    assert Valid(m1);
    if m1.count >= m1.limit then
      Admission(Enqueue(m1, id), id, Queued)
    else
      var m2 := m1.(count := m1.count + 1);
      match Send(Fresh, t, true)
      case Returned(c, d) => Admission(m2.(calls := m2.calls[id := c]), id, Answered(Normal(d)))
      case Threw(c, x) => Admission(m2.(calls := m2.calls[id := c]), id, Answered(Abrupt(x)))
      case Throttled(c) => Admission(Enqueue(BackOff(m2.(calls := m2.calls[id := c])), id), id, Queued)
  }

  /** The window timer fires (`reset`): the counter returns to zero and
      `processQueue` passes its `while` test when `0 < limit` and the set
      is not empty; it then counts the first member and sends it before
      it first awaits, so the counter is already 1 when `reset` returns.
      A drain already running keeps running. */
  function Reset(m: Manager): (r: Manager)
    ensures r.queue == m.queue && r.calls == m.calls && r.limit == m.limit
    ensures r.count <= 1
    ensures r.count == 1 <==> 0 < m.limit && |m.queue| > 0
    ensures !m.draining ==> (r.draining <==> r.count == 1)
    ensures Valid(m) ==> Valid(r)
  {
    var dispatches := 0 < m.limit && |m.queue| > 0;
    m.(count := if dispatches then 1 else 0, draining := m.draining || dispatches)
  }

  /** The send of the first member of the set, already counted when it
      was dispatched, completes. A call whose send returned is deleted;
      the inner `for` of `processQueue` then counts the next member
      WITHOUT comparing the counter with the limit and sends it. When the
      set is empty the outer `while` ends the drain. A send that throws
      aborts `processQueue` and leaves the call in the set; a 429 leaves
      the drain awaiting a promise that only a later drain can settle,
      which ends this drain here. */
  function DrainStep(m: Manager, t: Transport): (r: Manager)
    requires Valid(m)
    ensures Valid(r)
    ensures r.limit == m.limit && r.nextId == m.nextId && r.calls.Keys == m.calls.Keys
    ensures !m.draining ==> r == m
    ensures m.draining ==>
      var head := m.queue[0];
      match Send(m.calls[head], t, true)
      case Returned(c, _) =>
        && r.count == (if r.draining then m.count + 1 else m.count)
        && r.queue == m.queue[1..]
        && r.calls == m.calls[head := c]
        && (r.draining <==> |m.queue| > 1)
      case Threw(c, _) =>
        && r.count == m.count
        && r.queue == m.queue
        && r.calls == m.calls[head := c]
        && !r.draining
      case Throttled(_) =>
        && r.count == m.limit
        && r.queue == m.queue
        && r.calls == m.calls
        && !r.draining
  {
    if !m.draining then m
    else
      var head := m.queue[0];
      match Send(m.calls[head], t, true)
      case Returned(c, _) =>
        var rest := m.queue[1..];
        assert c.handle.Some?;
        m.(calls := m.calls[head := c], queue := rest, draining := |rest| > 0,
           count := if |rest| > 0 then m.count + 1 else m.count)
      case Threw(c, _) =>
        assert c.handle.Some?;
        m.(calls := m.calls[head := c], draining := false)
      case Throttled(c) =>
        Enqueue(BackOff(m.(calls := m.calls[head := c])), head).(draining := false)
  }

  /** The events the outside world delivers. */
  datatype Event = NewRequest(t: Transport) | TimerFires | SendCompletes(t: Transport)

  function Step(m: Manager, e: Event): (r: Manager)
    requires Valid(m)
    ensures Valid(r)
  {
    match e
    case NewRequest(t) => Request(m, t).next
    case TimerFires => Reset(m)
    case SendCompletes(t) => DrainStep(m, t)
  }

  function Run(m: Manager, events: seq<Event>): (r: Manager)
    requires Valid(m)
    ensures Valid(r)
    decreases |events|
  {
    if |events| == 0 then m else Run(Step(m, events[0]), events[1..])
  }

  /** Exactly-once settlement: a call whose promise has settled keeps
      that settlement through any event. */
  lemma SettlementSurvivesStep(m: Manager, e: Event, id: nat)
    requires Valid(m) && id in m.calls && Settled(m.calls[id])
    ensures id in Step(m, e).calls && Step(m, e).calls[id] == m.calls[id]
  {
  }

  lemma {:induction false} SettlementSurvivesRun(m: Manager, events: seq<Event>, id: nat)
    requires Valid(m) && id in m.calls && Settled(m.calls[id])
    ensures id in Run(m, events).calls && Run(m, events).calls[id] == m.calls[id]
    decreases |events|
  {
    if |events| > 0 {
      SettlementSurvivesStep(m, events[0], id);
      SettlementSurvivesRun(Step(m, events[0]), events[1..], id);
    }
  }

  /** The calls a running drain sends, in order, and the state it leaves,
      given the outcome of each send. */
  datatype Trace = Trace(final: Manager, sent: seq<nat>)

  function Drain(m: Manager, ts: seq<Transport>): (tr: Trace)
    requires Valid(m)
    ensures Valid(tr.final)
    ensures tr.final.calls.Keys == m.calls.Keys && tr.final.limit == m.limit
    decreases |ts|
  {
    if |ts| == 0 || !m.draining then Trace(m, [])
    else
      var rest := Drain(DrainStep(m, ts[0]), ts[1..]);
      Trace(rest.final, [m.queue[0]] + rest.sent)
  }

  predicate AllPending(m: Manager)
    requires Valid(m)
  {
    forall i :: 0 <= i < |m.queue| ==> m.calls[m.queue[i]].handle == Some(Pending)
  }

  /** A drain whose sends all succeed visits the queue in insertion
      order, fulfils each promise with its own response, empties the set,
      and raises the counter by one per call dispatched after the first
      (which was counted when the drain started), with no regard to the
      limit. */
  lemma {:induction false} DrainDeliversInOrder(m: Manager, ts: seq<Transport>)
    requires Valid(m) && m.draining && AllPending(m)
    requires |ts| == |m.queue|
    requires forall i :: 0 <= i < |ts| ==> ts[i].Ok?
    ensures Drain(m, ts).sent == m.queue
    ensures Drain(m, ts).final.count == m.count + |m.queue| - 1
    ensures Drain(m, ts).final.queue == [] && !Drain(m, ts).final.draining
    ensures forall i :: 0 <= i < |m.queue| ==>
      Drain(m, ts).final.calls[m.queue[i]] == Call(Some(Fulfilled(ts[i].data)))
    decreases |ts|
  {
    var head := m.queue[0];
    var m1 := DrainStep(m, ts[0]);
    assert Send(m.calls[head], ts[0], true) == Returned(Call(Some(Fulfilled(ts[0].data))), ts[0].data);
    assert m1.queue == m.queue[1..];
    assert m1.calls == m.calls[head := Call(Some(Fulfilled(ts[0].data)))];
    assert forall i :: 1 <= i < |m.queue| ==> m.queue[i] != head;
    if |m.queue| == 1 {
      assert !m1.draining;
      assert Drain(m1, ts[1..]) == Trace(m1, []);
    } else {
      assert m1.draining;
      assert AllPending(m1) by {
        forall i | 0 <= i < |m1.queue|
          ensures m1.calls[m1.queue[i]].handle == Some(Pending)
        {
          assert m1.queue[i] == m.queue[i + 1];
        }
      }
      DrainDeliversInOrder(m1, ts[1..]);
      var fin := Drain(m1, ts[1..]).final;
      forall i | 0 <= i < |m.queue|
        ensures fin.calls[m.queue[i]] == Call(Some(Fulfilled(ts[i].data)))
      {
        if i == 0 {
          SettlementSurvivesDrain(m1, ts[1..], head);
        } else {
          assert m.queue[i] == m1.queue[i - 1];
        }
      }
    }
  }

  lemma {:induction false} SettlementSurvivesDrain(m: Manager, ts: seq<Transport>, id: nat)
    requires Valid(m) && id in m.calls && Settled(m.calls[id])
    ensures id in Drain(m, ts).final.calls && Drain(m, ts).final.calls[id] == m.calls[id]
    decreases |ts|
  {
    if |ts| > 0 && m.draining {
      SettlementSurvivesStep(m, SendCompletes(ts[0]), id);
      SettlementSurvivesDrain(DrainStep(m, ts[0]), ts[1..], id);
    }
  }

  /** The counter is NOT bounded by the limit: after a reset, a queue
      longer than the limit drains completely within one window and
      leaves the counter above the limit. */
  lemma DrainCanExceedLimit(m: Manager, ts: seq<Transport>)
    requires Valid(m) && !m.draining && AllPending(m)
    requires 0 < m.limit < |m.queue|
    requires |ts| == |m.queue| && forall i :: 0 <= i < |ts| ==> ts[i].Ok?
    ensures Drain(Reset(m), ts).final.count == |m.queue| > m.limit
  {
    DrainDeliversInOrder(Reset(m), ts);
  }

  /** A concrete overshoot with limit 1. A reset only ever fires after a
      `backOff` (the constructor's timer callback `() => this.reset`
      never calls `reset`), so the run starts with a 429 that saturates
      the counter; two more requests queue behind the throttled one, and
      the drain after the reset sends all three, leaving the counter at 3. */
  lemma OvershootAfterBackOff(d: Value)
    ensures
      var a1 := Request(New(1), ErrorStatus(429, Null));
      var a2 := Request(a1.next, Ok(d));
      var a3 := Request(a2.next, Ok(d));
      var fin := Drain(Reset(a3.next), [Ok(d), Ok(d), Ok(d)]).final;
      && a1.answer == Queued && a2.answer == Queued && a3.answer == Queued
      && fin.queue == [] && fin.count == 3 && fin.limit == 1
  {
    NewIsValid(1);
    var a1 := Request(New(1), ErrorStatus(429, Null));
    assert a1.next.count == 1 && a1.next.queue == [0];
    var a2 := Request(a1.next, Ok(d));
    assert a2.next.queue == [0, 1];
    var a3 := Request(a2.next, Ok(d));
    assert a3.next.queue == [0, 1, 2];
    var r := Reset(a3.next);
    assert r.draining && r.count == 1;
    assert AllPending(r);
    DrainDeliversInOrder(r, [Ok(d), Ok(d), Ok(d)]);
  }

  /** A request that arrives while a drain is awaiting its first send
      sees that call counted: with limit 1 it is queued, not sent. */
  lemma InFlightDrainCallIsCounted(d: Value, t: Transport)
    ensures
      var a1 := Request(New(1), ErrorStatus(429, Null));
      var a2 := Request(a1.next, Ok(d));
      var r := Reset(a2.next);
      var a3 := Request(r, t);
      && r.draining && r.count == 1
      && a3.answer == Queued && a3.next.count == 1
      && a3.next.queue == [a1.id, a2.id, a3.id]
  {
    NewIsValid(1);
  }

  /** A send that gets no response inside a drain rejects the caller's
      promise and then throws a TypeError out of `send`: the drain stops
      and the call stays at the head of the set, so the next reset sends
      it again although its promise has already settled. */
  lemma NoResponseStallsTheDrain(m: Manager, message: string, t: Transport)
    requires Valid(m) && m.draining && AllPending(m) && 0 < m.limit
    ensures
      var head := m.queue[0];
      var stalled := DrainStep(m, NoResponse(message));
      && stalled.queue == m.queue
      && !stalled.draining
      && stalled.calls[head].handle
         == Some(Rejected(Raised(NetworkError(message, Str("No Response"), Null))))
      && Reset(stalled).draining
      && Drain(Reset(stalled), [t]).sent == [head]
  {
    var stalled := DrainStep(m, NoResponse(message));
    assert Drain(Reset(stalled), [t]).sent == [m.queue[0]] + Drain(DrainStep(Reset(stalled), t), []).sent;
  }

  /** A 429 on an immediate send saturates the counter even when it was
      0, so the next request is queued; the reset dispatches the throttled
      call first (counter 1), its promise takes the retried response, and
      the next queued call is then dispatched and counted (counter 2). */
  lemma ThrottleQueuesEveryone(limit: nat, body: Value, other: Transport, retried: Value)
    requires limit > 0
    ensures
      var d := Request(New(limit), ErrorStatus(429, Null));
      var e := Request(d.next, other);
      var fin := DrainStep(Reset(e.next), Ok(retried));
      && d.answer == Queued && d.next.count == limit
      && e.answer == Queued && e.next.queue == [d.id, e.id]
      && Reset(e.next).count == 1
      && fin.calls[d.id] == Call(Some(Fulfilled(retried)))
      && fin.queue == [e.id] && fin.count == 2
  {
    NewIsValid(limit);
  }
}

=== FILE: subscribers.dfy ===
/** Subscribers (src/Subscribers/Subscriber.js and src/Subscribers/index.js):
    the subscriber entity with its own operations, and the operations of
    the `Subscribers` resource. Every operation is a function of its
    arguments and the client replies it awaits. */
module Subscribers {
  import opened Js
  import opened Errors
  import opened Reads
  import opened Client
  import Pagination

  /** The properties of a subscriber instance (its client reference is
      left out). After `update` or `unsubscribe` any of them but `id` can
      be `undefined`. */
  datatype Subscriber = Subscriber(
    id: Value,
    firstName: Value,
    emailAddress: Value,
    state: Value,
    createdAt: Value,
    fields: Value)

  const Keys: set<string> := {"id", "first_name", "email_address", "state", "created_at", "fields"}

  /** The keys `update` may send. */
  const UpdatableKeys: set<string> := {"first_name", "email_address", "fields"}

  /** `toJSON()`. */
  function ToJson(s: Subscriber): (r: Record)
    ensures r.Keys == Keys
  {
    map["id" := s.id, "first_name" := s.firstName, "email_address" := s.emailAddress,
        "state" := s.state, "created_at" := s.createdAt, "fields" := s.fields]
  }

  /** The constructor's destructuring default of each key. */
  function Default(key: string): Value {
    if key == "fields" then Obj(map[]) else Null
  }

  /** No property is `undefined`, as after construction. */
  predicate Defined(s: Subscriber) {
    forall k :: k in Keys ==> ToJson(s)[k] != Undefined
  }

  /** `new Subscriber(client, r)`: each property the payload gives is kept,
      and each missing or `undefined` one takes its default. */
  function New(r: Record): (s: Subscriber)
    ensures Defined(s)
    ensures forall k :: k in Keys && Lookup(r, k) != Undefined ==> ToJson(s)[k] == r[k]
    ensures forall k :: k in Keys && Lookup(r, k) == Undefined ==> ToJson(s)[k] == Default(k)
  {
    Subscriber(
      OrDefault(Lookup(r, "id"), Null),
      OrDefault(Lookup(r, "first_name"), Null),
      OrDefault(Lookup(r, "email_address"), Null),
      OrDefault(Lookup(r, "state"), Null),
      OrDefault(Lookup(r, "created_at"), Null),
      OrDefault(Lookup(r, "fields"), Obj(map[])))
  }

  /** A constructed subscriber serialises to a payload that rebuilds it. */
  lemma JsonRoundTrip(s: Subscriber)
    requires Defined(s)
    ensures New(ToJson(s)) == s
  {
    var r := ToJson(s);
    assert r["id"] != Undefined && r["first_name"] != Undefined && r["email_address"] != Undefined;
    assert r["state"] != Undefined && r["created_at"] != Undefined && r["fields"] != Undefined;
  }

  /** The constructor applied to any value: `undefined` takes the `= {}`
      parameter default; `null` cannot be destructured. */
  function FromValue(v: Value): (r: Completion<Subscriber>)
    ensures r.Abrupt? <==> v == Null
    ensures r.Abrupt? ==> r.thrown == TypeError
    ensures r.Normal? ==> r.value == New(FieldsOf(v))
  {
    if v == Null then Abrupt(TypeError) else Normal(New(FieldsOf(v)))
  }

  /** `#updateProperties(subscriber)`: every property but `id` is
      overwritten with what the payload holds, `undefined` included. */
  function UpdateProperties(s: Subscriber, v: Value): (r: Completion<Subscriber>)
    ensures r.Abrupt? <==> Nullish(v)
    ensures r.Abrupt? ==> r.thrown == TypeError
    ensures r.Normal? ==> r.value.id == s.id
    ensures r.Normal? ==> forall k :: k in Keys && k != "id" ==> ToJson(r.value)[k] == Lookup(FieldsOf(v), k)
  {
    if Nullish(v) then Abrupt(TypeError)
    else
      var f := FieldsOf(v);
      Normal(Subscriber(s.id, Lookup(f, "first_name"), Lookup(f, "email_address"),
                        Lookup(f, "state"), Lookup(f, "created_at"), Lookup(f, "fields")))
  }

  /** The body `update` sends: exactly the updatable keys the argument
      gives a value other than `undefined`. */
  function UpdatePayload(arg: Record): (p: Record)
    ensures forall k :: k in p <==> k in UpdatableKeys && Lookup(arg, k) != Undefined
    ensures forall k :: k in p ==> p[k] == Lookup(arg, k)
  {
    var p0: Record := map[];
    var p1 := if Lookup(arg, "first_name") != Undefined then p0["first_name" := arg["first_name"]] else p0;
    var p2 := if Lookup(arg, "email_address") != Undefined then p1["email_address" := arg["email_address"]] else p1;
    if Lookup(arg, "fields") != Undefined then p2["fields" := arg["fields"]] else p2
  }

  /** The path of a subscriber, as the entity's template literal builds it. */
  function SubscriberPath(id: Value): string {
    "/subscribers/" + ToString(id)
  }

  /** A reply whose `subscriber` is the object `rec`. */
  predicate Carries(reply: Completion<Value>, key: string, rec: Record) {
    reply.Normal? && reply.value.Obj? && Lookup(reply.value.fields, key) == Obj(rec)
  }

  /** The awaited reply's `subscriber`, applied with `#updateProperties`. */
  function Refresh(s: Subscriber, v: Value): Completion<Subscriber> {
    Then(Prop(v, "subscriber"), (sub: Value) => UpdateProperties(s, sub))
  }

  /** `subscriber.update({ first_name, email_address, fields })`. */
  function Update(s: Subscriber, arg: Value, reply: Completion<Value>): (r: Run<Subscriber>)
    ensures Nullish(arg) ==> r == Run([], Abrupt(TypeError))
    ensures !Nullish(arg) && !Truthy(s.id) ==>
      r.calls == [] && r.result == Abrupt(Raised(ValidationError(
        "Invalid Subscriber ID", Str("Invalid Subscriber ID"), Obj(ToJson(s)))))
    ensures !Nullish(arg) && Truthy(s.id) ==>
      r.calls == [Put(SubscriberPath(s.id), Obj(UpdatePayload(FieldsOf(arg))), None)]
    ensures !Nullish(arg) && Truthy(s.id) && reply.Abrupt? ==> r.result == Abrupt(reply.thrown)
    ensures !Nullish(arg) && Truthy(s.id) && reply.Normal? && Nullish(Lookup(FieldsOf(reply.value), "subscriber")) ==>
      r.result == Abrupt(TypeError)
    ensures r.result.Normal? ==> r.result.value.id == s.id
    ensures forall rec :: !Nullish(arg) && Truthy(s.id) && Carries(reply, "subscriber", rec) ==>
      r.result.Normal? && forall k :: k in Keys && k != "id" ==> ToJson(r.result.value)[k] == Lookup(rec, k)
  {
    if Nullish(arg) then Run([], Abrupt(TypeError))
    else if !Truthy(s.id) then Refuse(NewValidationError(Str("Invalid Subscriber ID"), Obj(ToJson(s))))
    else Exchange(Put(SubscriberPath(s.id), Obj(UpdatePayload(FieldsOf(arg))), None), reply,
                  (v: Value) => Refresh(s, v))
  }

  /** `subscriber.unsubscribe()`. */
  function Unsubscribe(s: Subscriber, reply: Completion<Value>): (r: Run<Subscriber>)
    ensures !Truthy(s.emailAddress) ==>
      r.calls == [] && r.result == Abrupt(Raised(ValidationError(
        "Invalid Subscriber email", Str("Invalid Subscriber email"), Obj(ToJson(s)))))
    ensures Truthy(s.emailAddress) ==>
      r.calls == [Put("/unsubscribe", Obj(map["email" := s.emailAddress]), None)]
    ensures Truthy(s.emailAddress) && reply.Abrupt? ==> r.result == Abrupt(reply.thrown)
    ensures Truthy(s.emailAddress) && reply.Normal? && Nullish(Lookup(FieldsOf(reply.value), "subscriber")) ==>
      r.result == Abrupt(TypeError)
    ensures r.result.Normal? ==> r.result.value.id == s.id
    ensures forall rec :: Truthy(s.emailAddress) && Carries(reply, "subscriber", rec) ==>
      r.result.Normal? && forall k :: k in Keys && k != "id" ==> ToJson(r.result.value)[k] == Lookup(rec, k)
  {
    if !Truthy(s.emailAddress) then Refuse(NewValidationError(Str("Invalid Subscriber email"), Obj(ToJson(s))))
    else Exchange(Put("/unsubscribe", Obj(map["email" := s.emailAddress]), None), reply,
                  (v: Value) => Refresh(s, v))
  }

  /** `subscriber.listTags()`: the reply's raw `tags`. */
  function ListTags(s: Subscriber, reply: Completion<Value>): (r: Run<Value>)
    ensures !Truthy(s.id) ==>
      r.calls == [] && r.result == Abrupt(Raised(ValidationError(
        "Invalid Subscriber id", Str("Invalid Subscriber id"), Obj(ToJson(s)))))
    ensures Truthy(s.id) ==> r.calls == [Get(SubscriberPath(s.id) + "/tags", None)]
    ensures Truthy(s.id) && reply.Normal? && reply.value.Obj? ==>
      r.result == Normal(Lookup(reply.value.fields, "tags"))
    ensures Truthy(s.id) && reply.Abrupt? ==> r.result == Abrupt(reply.thrown)
    ensures Truthy(s.id) && reply.Normal? && Nullish(reply.value) ==> r.result == Abrupt(TypeError)
    ensures Truthy(s.id) && reply.Normal? && !Nullish(reply.value) ==>
      r.result == Normal(Lookup(FieldsOf(reply.value), "tags"))
  {
    if !Truthy(s.id) then Refuse(NewValidationError(Str("Invalid Subscriber id"), Obj(ToJson(s))))
    else Exchange(Get(SubscriberPath(s.id) + "/tags", None), reply, (v: Value) => Prop(v, "tags"))
  }

  // ---- the Subscribers resource ----

  /** The sort orders the API accepts. */
  predicate SortOrder(v: Value) {
    v == Str("asc") || v == Str("desc")
  }

  /** The date filters, copied when truthy. */
  const DateKeys: set<string> := {"from", "to", "updated_from", "updated_to"}

  /** Key by key, what `Subscribers.#filterBuilder` leaves in the query:
      the sort order always ("asc" unless "asc" or "desc" is asked for),
      a date filter when it is truthy, the sort field only as
      "cancelled_at", and otherwise whatever `initial` held. */
  function FilteredAt(filters: Record, initial: Record, k: string): Option<Value> {
    if k == "sort_order" then
      Some(if SortOrder(Lookup(filters, k)) then Lookup(filters, k) else Str("asc"))
    else if k in DateKeys && Truthy(Lookup(filters, k)) then Some(filters[k])
    else if k == "sort_field" && Lookup(filters, k) == Str("cancelled_at") then Some(Str("cancelled_at"))
    else At(initial, k)
  }

  /** `initial.sort_order = …`: the first step of the builder. */
  function SetSortOrder(q: Record, filters: Record): (r: Record)
    ensures forall k :: At(r, k) == (if k == "sort_order" then FilteredAt(filters, q, k) else At(q, k))
  {
    var order := Lookup(filters, "sort_order");
    q["sort_order" := if SortOrder(order) then order else Str("asc")]
  }

  /** One `if (filters.k) { initial.k = filters.k }` step. */
  function CopyIfTruthy(q: Record, filters: Record, key: string): (r: Record)
    ensures forall k :: At(r, k) == (if k == key && Truthy(Lookup(filters, k)) then Some(filters[k]) else At(q, k))
  {
    if Truthy(Lookup(filters, key)) then q[key := filters[key]] else q
  }

  /** `initial.sort_field = 'cancelled_at'`: the last step. */
  function SetSortField(q: Record, filters: Record): (r: Record)
    ensures forall k ::
              At(r, k) == if k == "sort_field" && Lookup(filters, k) == Str("cancelled_at")
                          then Some(Str("cancelled_at")) else At(q, k)
  {
    if Lookup(filters, "sort_field") == Str("cancelled_at") then q["sort_field" := Str("cancelled_at")] else q
  }

  /** `Subscribers.#filterBuilder(filters, initial)`. */
  function FilterBuilder(filters: Record, initial: Record): (r: Record)
    ensures forall k :: At(r, k) == FilteredAt(filters, initial, k)
  {
    var q0 := SetSortOrder(initial, filters);
    var q1 := CopyIfTruthy(q0, filters, "from");
    var q2 := CopyIfTruthy(q1, filters, "to");
    var q3 := CopyIfTruthy(q2, filters, "updated_from");
    var q4 := CopyIfTruthy(q3, filters, "updated_to");
    SetSortField(q4, filters)
  }

  /** The query always carries a valid sort order, and building it twice
      with the same filters changes nothing. */
  lemma FilterBuilderIsIdempotent(filters: Record, initial: Record)
    ensures var once := FilterBuilder(filters, initial);
      && SortOrder(once["sort_order"])
      && FilterBuilder(filters, once) == once
  {
    var once := FilterBuilder(filters, initial);
    var twice := FilterBuilder(filters, once);
    assert At(once, "sort_order").Some?;
    forall k
      ensures At(twice, k) == At(once, k)
    {
      assert At(twice, k) == FilteredAt(filters, once, k);
    }
    SameEntries(twice, once);
  }

  /** `getSubscriber(subscriber_id)`. */
  function GetSubscriber(id: Value, reply: Completion<Value>): (r: Run<Subscriber>)
    ensures r.calls == [Get(SubscriberPath(id), None)]
    ensures reply.Abrupt? ==> r.result == Abrupt(reply.thrown)
    ensures forall rec :: Carries(reply, "subscriber", rec) ==> r.result == Normal(New(rec))
    ensures reply.Normal? && Nullish(reply.value) ==> r.result == Abrupt(TypeError)
    ensures reply.Normal? && reply.value.Obj? ==>
      (r.result == Abrupt(TypeError) <==> Lookup(reply.value.fields, "subscriber") == Null)
  {
    Exchange(Get(SubscriberPath(id), None), reply, (v: Value) => Then(Prop(v, "subscriber"), FromValue))
  }

  /** The `find` predicate of `findSubscriber`: reading `email_address`
      from a nullish entry throws, which `find` passes on. */
  predicate Matches(email: Value, x: Value) {
    Nullish(x) || Lookup(FieldsOf(x), "email_address") == email
  }

  /** The entry `find` returned, after `|| null`. */
  function Found(x: Value): Completion<Option<Subscriber>> {
    if Nullish(x) then Abrupt(TypeError)
    else if Truthy(x) then Normal(Some(New(FieldsOf(x))))
    else Normal(None)
  }

  /** `subscribers.find(...) || null` over the reply's `subscribers`. */
  function FindIn(email: Value, v: Value): Completion<Option<Subscriber>> {
    Then(Prop(v, "subscribers"), (subs: Value) =>
      if !subs.Arr? then Abrupt(TypeError)
      else match Find(subs.items, (x: Value) => Matches(email, x))
        case None => Normal(None)
        case Some(i) => Found(subs.items[i]))
  }

  /** The `subscribers` of a reply, when it is an array of objects. */
  predicate ListsObjects(reply: Completion<Value>, key: string) {
    && reply.Normal? && reply.value.Obj?
    && Lookup(reply.value.fields, key).Arr?
    && forall i :: 0 <= i < |Lookup(reply.value.fields, key).items| ==> Lookup(reply.value.fields, key).items[i].Obj?
  }

  /** `findSubscriber(email_address)`: `null` when no listed subscriber
      has that email, otherwise the first one that has it. */
  function FindSubscriber(email: Value, reply: Completion<Value>): (r: Run<Option<Subscriber>>)
    ensures r.calls == [Get("subscribers", Some(map["email_address" := email]))]
    ensures reply.Abrupt? ==> r.result == Abrupt(reply.thrown)
    ensures ListsObjects(reply, "subscribers") ==>
      var items := reply.value.fields["subscribers"].items;
      && r.result.Normal?
      && (r.result.value.None? <==> forall i :: 0 <= i < |items| ==> Lookup(items[i].fields, "email_address") != email)
      && (r.result.value.Some? ==>
            exists i ::
              && 0 <= i < |items|
              && Lookup(items[i].fields, "email_address") == email
              && (forall j :: 0 <= j < i ==> Lookup(items[j].fields, "email_address") != email)
              && r.result.value.value == New(items[i].fields))
  {
    Exchange(Get("subscribers", Some(map["email_address" := email])), reply, (v: Value) => FindIn(email, v))
  }

  /** The query `getAllSubscribers` pages with: the filters built onto
      `{ page: 0 }`. */
  function AllSubscribersQuery(filters: Record): (q: Record)
    ensures q == FilterBuilder(filters, map["page" := Num(0)])
    ensures Lookup(q, "page") == Num(0)
  {
    var q := FilterBuilder(filters, map["page" := Num(0)]);
    assert At(q, "page") == FilteredAt(filters, map["page" := Num(0)], "page");
    q
  }

  /** `getAllSubscribers(filters)`: the pages of `subscribers` with the
      built query, one subscriber per listed entry, in page order. */
  function GetAllSubscribers(filters: Record, replies: seq<Completion<Pagination.Page>>): (r: Run<seq<Subscriber>>)
    requires Pagination.Ends(0, replies)
    ensures Pagination.StopsAfter(0, replies, |r.calls|)
    ensures forall i :: 0 <= i < |r.calls| ==>
      r.calls[i] == Get("subscribers", Some(AllSubscribersQuery(filters)["page" := Num(i + 1)]))
    ensures r.result.Abrupt? <==> replies[|r.calls| - 1].Abrupt?
    ensures r.result.Abrupt? ==> r.result.thrown == replies[|r.calls| - 1].thrown
    ensures r.result.Normal? ==> r.result.value == Map(Pagination.Entries(replies[..|r.calls|]), New)
  {
    Pagination.CollectFromStart("subscribers", AllSubscribersQuery(filters), replies, New)
  }

  /** `updateSubscriber(subscriber_id, payload)`: the payload is sent as
      given. */
  function UpdateSubscriber(id: Value, payload: Value, reply: Completion<Value>): (r: Run<Subscriber>)
    ensures r.calls == [Put("subscribers/" + ToString(id), payload, None)]
    ensures reply.Abrupt? ==> r.result == Abrupt(reply.thrown)
    ensures forall rec :: Carries(reply, "subscriber", rec) ==> r.result == Normal(New(rec))
  {
    Exchange(Put("subscribers/" + ToString(id), payload, None), reply,
             (v: Value) => Then(Prop(v, "subscriber"), FromValue))
  }

  /** `unsubscribeSubscriber(email)`. */
  function UnsubscribeSubscriber(email: Value, reply: Completion<Value>): (r: Run<Subscriber>)
    ensures r.calls == [Put("/unsubscribe", Obj(map["email" := email]), None)]
    ensures reply.Abrupt? ==> r.result == Abrupt(reply.thrown)
    ensures forall rec :: Carries(reply, "subscriber", rec) ==> r.result == Normal(New(rec))
  {
    Exchange(Put("/unsubscribe", Obj(map["email" := email]), None), reply,
             (v: Value) => Then(Prop(v, "subscriber"), FromValue))
  }

  /** `getTagsForSubscriber(subscriber_id)`: the reply's raw `tags`. */
  function GetTagsForSubscriber(id: Value, reply: Completion<Value>): (r: Run<Value>)
    ensures r.calls == [Get(SubscriberPath(id) + "/tags", None)]
    ensures reply.Normal? && reply.value.Obj? ==> r.result == Normal(Lookup(reply.value.fields, "tags"))
    ensures reply.Abrupt? ==> r.result == Abrupt(reply.thrown)
    ensures reply.Normal? && Nullish(reply.value) ==> r.result == Abrupt(TypeError)
    ensures reply.Normal? && !Nullish(reply.value) ==> r.result == Normal(Lookup(FieldsOf(reply.value), "tags"))
  {
    Exchange(Get(SubscriberPath(id) + "/tags", None), reply, (v: Value) => Prop(v, "tags"))
  }

  /** The entity's `listTags` is the resource's `getTagsForSubscriber`
      behind an id guard. */
  lemma ListTagsAgreesWithResource(s: Subscriber, reply: Completion<Value>)
    requires Truthy(s.id)
    ensures ListTags(s, reply) == GetTagsForSubscriber(s.id, reply)
  {
  }

  /** The entity's `unsubscribe` and the resource's `unsubscribeSubscriber`
      send the same request. They agree on a reply that returns this
      subscriber in full, but a reply without `subscriber` makes only
      the entity throw: the resource builds a subscriber of defaults. */
  lemma UnsubscribeAgreesWithResource(s: Subscriber, reply: Completion<Value>)
    requires Truthy(s.emailAddress)
    ensures Unsubscribe(s, reply).calls == UnsubscribeSubscriber(s.emailAddress, reply).calls
    ensures Defined(s) && Carries(reply, "subscriber", ToJson(s)) ==>
      Unsubscribe(s, reply).result == UnsubscribeSubscriber(s.emailAddress, reply).result == Normal(s)
    ensures reply.Normal? && reply.value == Obj(map[]) ==>
      && Unsubscribe(s, reply).result == Abrupt(TypeError)
      && UnsubscribeSubscriber(s.emailAddress, reply).result == Normal(New(map[]))
  {
    if Defined(s) && Carries(reply, "subscriber", ToJson(s)) {
      JsonRoundTrip(s);
      var r := Unsubscribe(s, reply).result;
      assert r.Normal?;
      assert ToJson(r.value) == ToJson(s);
    }
  }
}

=== FILE: subscription_filter.dfy ===
/** `buildSubscriptionFilter` (src/utils/buildSubscriptionFilter.js): copies
    the two subscription filters a caller may pass onto an initial query
    object and returns that same object. */
module SubscriptionFilter {
  import opened Js

  const SortOrder := "sort_order"
  const SubscriberState := "subscriber_state"

  /** `sort_order` is copied only when it is "asc" or "desc". */
  predicate CopiesSortOrder(filters: Record) {
    Lookup(filters, SortOrder) == Str("asc") || Lookup(filters, SortOrder) == Str("desc")
  }

  /** `subscriber_state` is copied when it is "active", or when the
      SORT ORDER is "cancelled" (then whatever the state is, even
      `undefined`, is written). */
  predicate CopiesState(filters: Record) {
    Lookup(filters, SubscriberState) == Str("active") || Lookup(filters, SortOrder) == Str("cancelled")
  }

  /** `buildSubscriptionFilter(filters = {}, initial = {})`; `None` stands
      for an argument left `undefined`. */
  function BuildSubscriptionFilter(filters: Option<Record>, initial: Option<Record>): (r: Record)
    ensures var f := filters.GetOr(map[]); var i := initial.GetOr(map[]);
      && r.Keys <= i.Keys + {SortOrder, SubscriberState}
      && (forall k :: k in i && k != SortOrder && k != SubscriberState ==> k in r && r[k] == i[k])
      && Lookup(r, SortOrder) == (if CopiesSortOrder(f) then Lookup(f, SortOrder) else Lookup(i, SortOrder))
      && (SortOrder in r <==> SortOrder in i || CopiesSortOrder(f))
      && Lookup(r, SubscriberState) == (if CopiesState(f) then Lookup(f, SubscriberState) else Lookup(i, SubscriberState))
      && (SubscriberState in r <==> SubscriberState in i || CopiesState(f))
  {
    var f := filters.GetOr(map[]);
    var i := initial.GetOr(map[]);
    var withOrder := if CopiesSortOrder(f) then i[SortOrder := f[SortOrder]] else i;
    if CopiesState(f) then withOrder[SubscriberState := Lookup(f, SubscriberState)] else withOrder
  }

  /** A state of "cancelled" on its own is dropped: only the sort order
      "cancelled" lets a non-active state through. */
  lemma CancelledStateAloneIsDropped(filters: Record, initial: Record)
    requires Lookup(filters, SubscriberState) == Str("cancelled")
    requires Lookup(filters, SortOrder) != Str("cancelled")
    ensures BuildSubscriptionFilter(Some(filters), Some(initial)) == (
      if CopiesSortOrder(filters) then initial[SortOrder := filters[SortOrder]] else initial)
  {
  }

  /** Only the two filter keys can be added, so building again with the
      same filters changes nothing. */
  lemma BuildIsIdempotent(filters: Option<Record>, initial: Option<Record>)
    ensures var once := BuildSubscriptionFilter(filters, initial);
      BuildSubscriptionFilter(filters, Some(once)) == once
  {
  }

  /** The paging start the collection helpers use survives the filters. */
  lemma PageSurvives(filters: Option<Record>, page: Value)
    ensures Lookup(BuildSubscriptionFilter(filters, Some(map["page" := page])), "page") == page
  {
  }
}

=== FILE: subscriptions.dfy ===
/** The subscription entity (src/Subscription.js): the properties it
    copies from a payload, the subscriber it wraps, and `getSubscriber`. */
module Subscriptions {
  import opened Js
  import opened Errors
  import opened Reads
  import opened Client
  import Subscribers

  /** A subscription instance: seven copied properties and the wrapped
      subscriber (`None` for `null`). */
  datatype Subscription = Subscription(
    id: Value,
    state: Value,
    createdAt: Value,
    source: Value,
    referrer: Value,
    subscribableId: Value,
    subscribableType: Value,
    subscriber: Option<Subscribers.Subscriber>)

  const Keys: set<string> := {"id", "state", "created_at", "source", "referrer", "subscribable_id", "subscribable_type"}

  /** The seven copied properties under their payload names. */
  function Properties(s: Subscription): (r: Record)
    ensures r.Keys == Keys
  {
    map["id" := s.id, "state" := s.state, "created_at" := s.createdAt, "source" := s.source,
        "referrer" := s.referrer, "subscribable_id" := s.subscribableId, "subscribable_type" := s.subscribableType]
  }

  /** `new Subscription(client, subscription)` on a payload: the seven
      properties are copied as they are (no defaults), and a truthy
      `subscriber` is wrapped as a subscriber entity. */
  function New(r: Record): (s: Subscription)
    ensures s.id == Lookup(r, "id") && s.state == Lookup(r, "state") && s.createdAt == Lookup(r, "created_at")
    ensures s.source == Lookup(r, "source") && s.referrer == Lookup(r, "referrer")
    ensures s.subscribableId == Lookup(r, "subscribable_id") && s.subscribableType == Lookup(r, "subscribable_type")
    ensures s.subscriber.Some? <==> Truthy(Lookup(r, "subscriber"))
    ensures s.subscriber.Some? ==> s.subscriber.value == Subscribers.New(FieldsOf(Lookup(r, "subscriber")))
  {
    var sub := Lookup(r, "subscriber");
    Subscription(
      Lookup(r, "id"), Lookup(r, "state"), Lookup(r, "created_at"), Lookup(r, "source"),
      Lookup(r, "referrer"), Lookup(r, "subscribable_id"), Lookup(r, "subscribable_type"),
      if Truthy(sub) then Some(Subscribers.New(FieldsOf(sub))) else None)
  }

  /** The constructor reads nothing but its eight keys: payloads that
      agree on them build the same subscription, and the wrapped
      subscriber has no `undefined` property. */
  lemma NewReadsOnlyItsKeys(r1: Record, r2: Record)
    requires forall k :: k in Keys ==> Lookup(r1, k) == Lookup(r2, k)
    requires Lookup(r1, "subscriber") == Lookup(r2, "subscriber")
    ensures New(r1) == New(r2)
    ensures New(r1).subscriber.Some? ==> Subscribers.Defined(New(r1).subscriber.value)
  {
    var s1, s2 := New(r1), New(r2);
    assert Properties(s1) == Properties(s2) by {
      forall k | k in Keys ensures Properties(s1)[k] == Properties(s2)[k] {
      }
    }
    assert Properties(s1)["id"] == Properties(s2)["id"];
    assert Properties(s1)["state"] == Properties(s2)["state"];
    assert Properties(s1)["created_at"] == Properties(s2)["created_at"];
    assert Properties(s1)["source"] == Properties(s2)["source"];
    assert Properties(s1)["referrer"] == Properties(s2)["referrer"];
    assert Properties(s1)["subscribable_id"] == Properties(s2)["subscribable_id"];
    assert Properties(s1)["subscribable_type"] == Properties(s2)["subscribable_type"];
  }

  /** The constructor applied to any value. */
  function FromValue(v: Value): Completion<Subscription> {
    Construct(v, New)
  }

  /** The id `this.subscriber?.id` reads, when it is truthy. */
  predicate HasSubscriberId(s: Subscription) {
    s.subscriber.Some? && Truthy(s.subscriber.value.id)
  }

  /** `subscription.getSubscriber()`: `null` without a subscriber id,
      otherwise the resource's `getSubscriber` for that id. */
  function GetSubscriber(s: Subscription, reply: Completion<Value>): (r: Run<Option<Subscribers.Subscriber>>)
    ensures !HasSubscriberId(s) ==> r == Run([], Normal(None))
    ensures HasSubscriberId(s) ==>
      var fetched := Subscribers.GetSubscriber(s.subscriber.value.id, reply);
      && r.calls == fetched.calls == [Get(Subscribers.SubscriberPath(s.subscriber.value.id), None)]
      && (r.result.Normal? <==> fetched.result.Normal?)
      && (r.result.Normal? ==> r.result.value == Some(fetched.result.value))
      && (r.result.Abrupt? ==> r.result.thrown == fetched.result.thrown)
  {
    if HasSubscriberId(s) then
      var fetched := Subscribers.GetSubscriber(s.subscriber.value.id, reply);
      Run(fetched.calls, Then(fetched.result, (x: Subscribers.Subscriber) => Normal(Some(x))))
    else Run([], Normal(None))
  }

  /** A subscription whose payload carried its subscriber with an id
      fetches exactly that subscriber, and the fetched subscriber keeps
      every property the reply gives. */
  lemma GetSubscriberFetchesTheWrappedId(r: Record, reply: Completion<Value>, rec: Record)
    requires Lookup(r, "subscriber").Obj? && Truthy(Lookup(Lookup(r, "subscriber").fields, "id"))
    requires Subscribers.Carries(reply, "subscriber", rec)
    ensures var got := GetSubscriber(New(r), reply);
      && got.calls == [Get(Subscribers.SubscriberPath(Lookup(Lookup(r, "subscriber").fields, "id")), None)]
      && got.result == Normal(Some(Subscribers.New(rec)))
  {
    var sub := Lookup(r, "subscriber");
    var s := New(r);
    assert s.subscriber.value == Subscribers.New(sub.fields);
    assert s.subscriber.value.id == sub.fields["id"];
  }
}

=== FILE: tags.dfy ===
/** Tags (src/Tags/Tag.js and src/Tags/index.js): the tag entity with its
    own operations, the operations of the `Tags` resource, and the two
    subscriber operations that produce tags and tag subscriptions
    (`addTag` and `removeTag` of src/Subscribers/Subscriber.js, placed
    here because they build tag-side entities). */
module Tags {
  import opened Js
  import opened Errors
  import opened Reads
  import opened Client
  import Pagination
  import SubscriptionFilter
  import Subscribers
  import Subscriptions

  /** A tag instance: six properties copied as they are. */
  datatype Tag = Tag(id: Value, name: Value, state: Value, createdAt: Value, updatedAt: Value, deletedAt: Value)

  /** `new Tag(client, tag)` on a payload record. */
  function New(r: Record): (t: Tag)
    ensures t.id == Lookup(r, "id") && t.name == Lookup(r, "name") && t.createdAt == Lookup(r, "created_at")
    ensures t.state == Lookup(r, "state") && t.updatedAt == Lookup(r, "updated_at") && t.deletedAt == Lookup(r, "deleted_at")
  {
    Tag(Lookup(r, "id"), Lookup(r, "name"), Lookup(r, "state"),
        Lookup(r, "created_at"), Lookup(r, "updated_at"), Lookup(r, "deleted_at"))
  }

  /** The constructor applied to any value. */
  function FromValue(v: Value): Completion<Tag> {
    Construct(v, New)
  }

  /** `toJSON()`: only the id, name and creation date. */
  function ToJson(t: Tag): (r: Record)
    ensures r.Keys == {"id", "name", "created_at"}
  {
    map["id" := t.id, "name" := t.name, "created_at" := t.createdAt]
  }

  /** `toJSON` keeps exactly what it lists: rebuilding from it restores
      those three properties and leaves the other three `undefined`. */
  lemma JsonRoundTrip(t: Tag)
    ensures New(ToJson(t)) == Tag(t.id, t.name, Undefined, t.createdAt, Undefined, Undefined)
    ensures ToJson(New(ToJson(t))) == ToJson(t)
  {
    var r := ToJson(t);
    assert "state" !in r && "updated_at" !in r && "deleted_at" !in r;
  }

  /** The tag's own paths, as the template literals build them. */
  function TagPath(id: Value): string {
    "tags/" + ToString(id)
  }

  /** The first page query of a tag's subscriptions: the filters built
      onto `{ page: 0 }`. */
  function SubscriptionsQuery(query: Option<Record>): (q: Record)
    ensures q == SubscriptionFilter.BuildSubscriptionFilter(query, Some(map["page" := Num(0)]))
    ensures Lookup(q, "page") == Num(0)
  {
    var q := SubscriptionFilter.BuildSubscriptionFilter(query, Some(map["page" := Num(0)]));
    SubscriptionFilter.PageSurvives(query, Num(0));
    q
  }

  /** `tag.getSubscriptions(query)`: every page of the tag's subscriptions,
      one subscription per listed entry, in page order. */
  function GetSubscriptions(t: Tag, query: Option<Record>, replies: seq<Completion<Pagination.Page>>): (r: Run<seq<Subscriptions.Subscription>>)
    requires Pagination.Ends(0, replies)
    ensures Pagination.StopsAfter(0, replies, |r.calls|)
    ensures forall i :: 0 <= i < |r.calls| ==>
      r.calls[i] == Get(TagPath(t.id) + "/subscriptions", Some(SubscriptionsQuery(query)["page" := Num(i + 1)]))
    ensures r.result.Abrupt? <==> replies[|r.calls| - 1].Abrupt?
    ensures r.result.Abrupt? ==> r.result.thrown == replies[|r.calls| - 1].thrown
    ensures r.result.Normal? ==> r.result.value == Map(Pagination.Entries(replies[..|r.calls|]), Subscriptions.New)
  {
    Pagination.CollectFromStart(TagPath(t.id) + "/subscriptions", SubscriptionsQuery(query), replies, Subscriptions.New)
  }

  /** `tag.addSubscriber(email)`: the reply's `subscription`. */
  function AddSubscriber(t: Tag, email: Value, reply: Completion<Value>): (r: Run<Subscriptions.Subscription>)
    ensures r.calls == [Post(TagPath(t.id) + "/subscribe", Obj(map["email" := email]), None)]
    ensures reply.Abrupt? ==> r.result == Abrupt(reply.thrown)
    ensures forall rec :: Subscribers.Carries(reply, "subscription", rec) ==> r.result == Normal(Subscriptions.New(rec))
    ensures reply.Normal? && reply.value.Obj? ==>
      (r.result.Abrupt? <==> Nullish(Lookup(reply.value.fields, "subscription")))
  {
    Exchange(Post(TagPath(t.id) + "/subscribe", Obj(map["email" := email]), None), reply,
             (v: Value) => Then(Prop(v, "subscription"), Subscriptions.FromValue))
  }

  /** `tag.removeSubscriber(email)`: the same tag, whatever the reply
      held, once the request succeeded. */
  function RemoveSubscriber(t: Tag, email: Value, reply: Completion<Value>): (r: Run<Tag>)
    ensures r.calls == [Post(TagPath(t.id) + "/unsubscribe", Obj(map["email" := email]), None)]
    ensures reply.Abrupt? ==> r.result == Abrupt(reply.thrown)
    ensures reply.Normal? ==> r.result == Normal(t)
  {
    Exchange(Post(TagPath(t.id) + "/unsubscribe", Obj(map["email" := email]), None), reply,
             (v: Value) => Normal(t))
  }

  // ---- the Tags resource ----

  /** `getAll()`: one tag per entry of the reply's `tags`. */
  function GetAll(reply: Completion<Value>): (r: Run<seq<Tag>>)
    ensures r.calls == [Get("tags", None)]
    ensures reply.Abrupt? ==> r.result == Abrupt(reply.thrown)
    ensures reply.Normal? && !Nullish(reply.value) ==>
      var listed := Lookup(FieldsOf(reply.value), "tags");
      && (r.result.Normal? <==> Records(listed).Normal?)
      && (r.result.Normal? ==>
            && |r.result.value| == |listed.items|
            && forall i :: 0 <= i < |listed.items| ==> r.result.value[i] == New(FieldsOf(listed.items[i])))
    ensures reply.Normal? && Nullish(reply.value) ==> r.result == Abrupt(TypeError)
  {
    Exchange(Get("tags", None), reply, (v: Value) => Then(Prop(v, "tags"), (tags: Value) => Build(tags, New)))
  }

  /** `getTag(name)`: the first listed tag with that name, `undefined`
      (here `None`) when there is none. */
  function GetTag(name: Value, reply: Completion<Value>): (r: Run<Option<Tag>>)
    ensures r.calls == [Get("tags", None)]
    ensures GetAll(reply).result.Abrupt? <==> r.result.Abrupt?
    ensures r.result.Abrupt? ==> r.result.thrown == GetAll(reply).result.thrown
    ensures r.result.Normal? ==>
      var tags := GetAll(reply).result.value;
      && (r.result.value.None? <==> forall i :: 0 <= i < |tags| ==> tags[i].name != name)
      && (r.result.value.Some? ==>
            exists i ::
              && 0 <= i < |tags|
              && tags[i] == r.result.value.value
              && tags[i].name == name
              && forall j :: 0 <= j < i ==> tags[j].name != name)
  {
    var all := GetAll(reply);
    Run(all.calls, Then(all.result, (tags: seq<Tag>) =>
      match Find(tags, (t: Tag) => t.name == name)
      case None => Normal(None)
      case Some(i) => Normal(Some(tags[i]))))
  }

  /** `createTag(name)`: the whole reply is the tag payload. */
  function CreateTag(name: Value, reply: Completion<Value>): (r: Run<Tag>)
    ensures r.calls == [Post("tags", Obj(map["tag" := Obj(map["name" := name])]), None)]
    ensures reply.Abrupt? ==> r.result == Abrupt(reply.thrown)
    ensures reply.Normal? ==> r.result == FromValue(reply.value)
  {
    Exchange(Post("tags", Obj(map["tag" := Obj(map["name" := name])]), None), reply, FromValue)
  }

  /** `{ name }` for each name. */
  function NamePayloads(names: seq<Value>): (p: seq<Value>)
    ensures |p| == |names|
    ensures forall i :: 0 <= i < |names| ==> p[i] == Obj(map["name" := names[i]])
  {
    Map(names, (n: Value) => Obj(map["name" := n]))
  }

  /** `bulkCreateTags(names)`: `names` must be an array; the reply itself
      is the array of created tags. */
  function BulkCreateTags(names: Value, reply: Completion<Value>): (r: Run<seq<Tag>>)
    ensures !names.Arr? ==> r == Run([], Abrupt(TypeError))
    ensures names.Arr? ==> r.calls == [Post("tags", Obj(map["tag" := Arr(NamePayloads(names.items))]), None)]
    ensures names.Arr? && reply.Abrupt? ==> r.result == Abrupt(reply.thrown)
    ensures names.Arr? && reply.Normal? ==>
      && (r.result.Normal? <==> Records(reply.value).Normal?)
      && (r.result.Normal? ==>
            && |r.result.value| == |reply.value.items|
            && forall i :: 0 <= i < |reply.value.items| ==> r.result.value[i] == New(FieldsOf(reply.value.items[i])))
  {
    if !names.Arr? then Run([], Abrupt(TypeError))
    else Exchange(Post("tags", Obj(map["tag" := Arr(NamePayloads(names.items))]), None), reply,
                  (v: Value) => Build(v, New))
  }

  /** `getAllSubscriptions(tag_id, query)`: a missing query defaults to
      `{}`. */
  function GetAllSubscriptions(tagId: Value, query: Option<Record>, replies: seq<Completion<Pagination.Page>>): (r: Run<seq<Subscriptions.Subscription>>)
    requires Pagination.Ends(0, replies)
    ensures Pagination.StopsAfter(0, replies, |r.calls|)
    ensures forall i :: 0 <= i < |r.calls| ==>
      r.calls[i] == Get(TagPath(tagId) + "/subscriptions", Some(SubscriptionsQuery(Some(query.GetOr(map[])))["page" := Num(i + 1)]))
    ensures r.result.Abrupt? <==> replies[|r.calls| - 1].Abrupt?
    ensures r.result.Abrupt? ==> r.result.thrown == replies[|r.calls| - 1].thrown
    ensures r.result.Normal? ==> r.result.value == Map(Pagination.Entries(replies[..|r.calls|]), Subscriptions.New)
  {
    Pagination.CollectFromStart(TagPath(tagId) + "/subscriptions", SubscriptionsQuery(Some(query.GetOr(map[]))),
                                replies, Subscriptions.New)
  }

  /** The entity's `getSubscriptions` and the resource's
      `getAllSubscriptions` for the tag's id are the same walk: an
      omitted query and `{}` build the same filters. */
  lemma TagSubscriptionsAgreeWithResource(t: Tag, query: Option<Record>, replies: seq<Completion<Pagination.Page>>)
    requires Pagination.Ends(0, replies)
    ensures GetSubscriptions(t, query, replies) == GetAllSubscriptions(t.id, query, replies)
  {
    assert SubscriptionsQuery(query) == SubscriptionsQuery(Some(query.GetOr(map[])));
  }

  /** Creating one tag by name and listing a single tag agree on the
      payload shape: each bulk entry is the body `createTag` nests under
      `tag`. */
  lemma BulkPayloadMatchesSingle(name: Value, reply: Completion<Value>)
    ensures CreateTag(name, reply).calls[0].data == Obj(map["tag" := NamePayloads([name])[0]])
    ensures BulkCreateTags(Arr([name]), reply).calls[0].data == Obj(map["tag" := Arr(NamePayloads([name]))])
  {
  }

  // ---- subscriber operations that build tag-side entities ----

  /** `subscriber.addTag(tag_id)`: the same request as `addSubscriber` on
      that tag with the subscriber's email. */
  function SubscriberAddTag(s: Subscribers.Subscriber, tagId: Value, reply: Completion<Value>): (r: Run<Subscriptions.Subscription>)
    ensures r.calls == [Post(TagPath(tagId) + "/subscribe", Obj(map["email" := s.emailAddress]), None)]
    ensures reply.Abrupt? ==> r.result == Abrupt(reply.thrown)
    ensures forall rec :: Subscribers.Carries(reply, "subscription", rec) ==> r.result == Normal(Subscriptions.New(rec))
  {
    Exchange(Post(TagPath(tagId) + "/subscribe", Obj(map["email" := s.emailAddress]), None), reply,
             (v: Value) => Then(Prop(v, "subscription"), Subscriptions.FromValue))
  }

  /** Tagging a subscriber from either side is one and the same call. */
  lemma AddTagIsAddSubscriber(s: Subscribers.Subscriber, t: Tag, reply: Completion<Value>)
    ensures SubscriberAddTag(s, t.id, reply) == AddSubscriber(t, s.emailAddress, reply)
  {
  }

  /** `subscriber.removeTag(tag_id)`: the whole reply is read as a tag. */
  function SubscriberRemoveTag(s: Subscribers.Subscriber, tagId: Value, reply: Completion<Value>): (r: Run<Tag>)
    ensures r.calls == [Delete("subscribers/" + ToString(s.id) + "/tags/" + ToString(tagId), None)]
    ensures reply.Abrupt? ==> r.result == Abrupt(reply.thrown)
    ensures reply.Normal? ==> r.result == FromValue(reply.value)
  {
    Exchange(Delete("subscribers/" + ToString(s.id) + "/tags/" + ToString(tagId), None), reply, FromValue)
  }
}
